=== FILE: README.md ===
# network-ts-benchmark engine, modelled in Dafny

The benchmark starts an echo server. It then starts `connections` clients on a
pool of worker threads. Each client sends `messages` messages of `bytes` bytes
over one TCP connection, and the server echoes every byte back. Each client
stamps the time it sends each message and the time the whole echo of that
message has come back. After all clients finish, the program reports:

- the total bytes moved;
- the wall-clock span of the run;
- the minimum, maximum, mean and median of the per-message latencies.

The asynchronous transport is treated as an event source. Every chain of
completion handlers is a pure transition function over completion events.
Each such function has a fold over a sequence of events.

Modules:

- `Transport` holds what the engine sees of the transport: error codes, the
  two `is_shutdown` classes (sessions and listening servers), and
  read/write completions.
- `Numbers` holds the one arithmetic helper the counting arguments share,
  `Min`.
- `ClientRecv` is the client's receive chain. It reassembles the byte stream
  into messages with a cursor `(index, pos)` and stamps each completed
  message.
- `ClientSend` is the client's payload (byte `i` is the digit `'0' + i % 10`)
  and its send chain (one outstanding write, messages in index order).
- `EchoSession` is the server's per-connection echo loop: read a chunk,
  write a copy of it back, read again.
- `EchoServer` is the accept loop. It also models `stop()` and `join()`, and
  captures the first error that escapes a handler.
- `StartBarrier` is the start barrier of the client worker pool, as a
  sequential trace of arrivals and wake-ups under the mutex.
- `Sorting` is a reference sort and the rank counts. They give the meaning
  of `std::nth_element`.
- `Report` is the statistics block. Times are integer nanosecond ticks.

## Model

| member | source | states |
|---|---|---|
| ClientRecv.Drain | src/main.cpp:239-245 | the stamping loop conserves bytes (`index'*S + pos' == index*S + pos`), keeps `index <= index' <= M`, ends with `index' == M` or `pos' < S`, and stamps `index .. index'-1` once each in increasing order |
| ClientRecv.Step | src/main.cpp:239-246 | one read completion of `size` bytes: `index'*S + pos' == index*S + pos + size`, `index <= index' <= M`, and on exit `index' == M` or `pos' < S`; the stamped indices are consecutive from `index` |
| ClientRecv.Start | src/main.cpp:192-196 | `start()` enters the receive chain at cursor `(0, 0)`; it records the end time at once exactly when no message is expected, and otherwise leaves a read outstanding |
| ClientRecv.Enter | src/main.cpp:230-235 | `recv(index, pos)` records the end time and issues no read exactly when `index >= M`, otherwise keeps a read outstanding at the same cursor |
| ClientRecv.OnRead | src/main.cpp:235-247 | a failed read faults the chain with that error and stamps nothing; a successful one never faults the chain, advances the cursor by exactly the bytes read, and ends the chain exactly when all `M` messages are in, re-issuing the read otherwise |
| ClientRecv.Feed | src/main.cpp:230-247 | over any completions the cursor stays within `M`, only moves forward, and the stamped indices are consecutive from the starting index, each stamped once; a chain that has not faulted stays unfaulted while every read succeeds |
| ClientRecv.FeedCountsBytes | src/main.cpp:239-246 | from any reachable cursor, successful reads make the index `min(M, T / S)` for `T` all bytes held, and while still reading every byte is accounted for |
| ClientRecv.ReceiveCounts | src/main.cpp:230-247 | from `start()`, reads totalling `T` bytes stamp `Whole(M, S, T)` messages, `0, 1, ...` in order (whole messages counted one at a time, at most `M`); the end time is recorded exactly when `index == M`; until then `pos == T - index*S` |
| ClientRecv.WholeIsDiv | src/main.cpp:241-245 | the number of whole messages, taken off one at a time and capped at `M`, is `min(M, T / S)` |
| ClientRecv.ChunkingIndependence | src/main.cpp:230-247 | two read sequences delivering the same number of bytes give the same stamp log and the same count, and the same cursor while messages are missing |
| ClientRecv.TwoHalves | src/main.cpp:239-246 | a message arriving as two reads of `S/2` is stamped once, by the second read, leaving `pos == 0`; the first read alone stamps nothing |
| ClientSend.Digit | src/main.cpp:284 | every payload byte is an ASCII decimal digit |
| ClientSend.MakePayload | src/main.cpp:281-285 | the payload has exactly `bytes` bytes and byte `i` is `'0' + i % 10` |
| ClientSend.Send | src/main.cpp:216-220 | `send(index)` does nothing when `index >= M`; otherwise it stamps message `index` and then issues one write of the payload for it |
| ClientSend.ScheduleShape | src/main.cpp:216-227 | in the issue schedule, entry `2k` stamps message `lo + k` and entry `2k+1` writes it with the payload, so each write follows its own stamp and indices strictly increase |
| ClientSend.OnWrite | src/main.cpp:221-226 | a failed write faults the chain with that error and issues nothing; a successful write of message `k` stamps and writes message `k + 1`, or finishes when `k + 1 >= M` |
| ClientSend.Run | src/main.cpp:192-194 | `start()` issues nothing when `M == 0`; otherwise its first actions are the stamp and the write of message 0 |
| ClientSend.FeedInOrder | src/main.cpp:221-226 | from an outstanding write of message `k`, each successful completion issues exactly the next message, until message `M - 1` |
| ClientSend.SendInOrder | src/main.cpp:192-227 | after `n` successful writes the chain has issued messages `0 .. min(n+1, M)-1` in index order, each stamped before its write, all with the same payload; it has finished exactly when `n >= M` |
| ClientSend.SendStopsAtError | src/main.cpp:221-224 | when the write of message `n` fails, the chain ends faulted with that error having issued exactly messages `0 .. n` |
| EchoSession.Start | src/main.cpp:61-63 | a fresh session has exactly one read outstanding and no writes |
| EchoSession.OnEvent | src/main.cpp:66-91 | a read of `n` bytes issues one write of exactly those bytes and then the next read; a shutdown-class error ends that chain quietly and any other error escapes |
| EchoSession.NoWritesAfterReadsEnd | src/main.cpp:68-71 | once the read chain has ended the session issues no further write |
| EchoSession.ReleasedWhenWritesComplete | src/main.cpp:67-90 | the handlers hold the session alive (`self`): once the read chain has ended, the completions of its outstanding writes leave nothing referring to it |
| EchoSession.EchoFidelity | src/main.cpp:66-91 | the concatenated write payloads are always a prefix of the concatenated bytes read, and equal to them when no completion failed |
| EchoSession.WriteBeforeNextRead | src/main.cpp:74-75 | each successful read issues exactly one write of its bytes before the next read is issued |
| EchoServer.Create | src/main.cpp:99-102 | the constructor arms exactly one accept before the event loop runs |
| EchoServer.OnEvent | src/main.cpp:164-175 | a successful accept starts exactly one session (its first read) and re-arms exactly one accept; an aborted accept ends the loop quietly; any other accept error is captured; after `stop()` no handler runs; a completion for session `id` steps that session alone by its own handler, tags its operations with `id`, and is skipped when it belongs to no outstanding operation; a captured fault is always a non-shutdown error carried by the event |
| EchoServer.Feed | src/main.cpp:116-121 | once stopped or faulted the event loop runs no more handlers and issues nothing |
| EchoServer.FeedAppend | src/main.cpp:116 | running the event loop over two traces in turn is running it over their concatenation |
| EchoServer.Join | src/main.cpp:151-156 | `join()` returns normally exactly when nothing was captured, and otherwise rethrows exactly the captured error |
| EchoServer.SessionRouting | src/main.cpp:66-91 | while the loop runs and no error escapes, session `id` inside the server ends in the state, and has issued exactly the operations in order, that the session alone would over the completions addressed to it |
| EchoServer.AcceptedSessionRouting | src/main.cpp:172-173 | on every trace, a connection accepted mid-trace gets its first read and then exactly what a fresh session issues over the completions addressed to it among the events the loop goes on to handle; over all of them when there is no `stop()` and no error escapes |
| EchoServer.Handled | src/main.cpp:116-121 | the loop handles a prefix of the trace, and when it handles less than all of it, `stop()` or an escaped error has ended it |
| EchoServer.RoutingStep | src/main.cpp:66-91 | one handler run changes session `id` exactly as the session's own handler does on the completion addressed to it, and issues on its behalf exactly the session's own operations |
| EchoServer.HandledRouting | src/main.cpp:66-91 | on every trace, whatever stops the loop, session `id` inside the server ends in the state, and has issued exactly the operations in order, that the session alone would over the completions addressed to it among the handled events |
| EchoServer.ServedEchoFidelity | src/main.cpp:66-91 | on every trace, what the server writes back on a connection is a prefix of the bytes read on it; all of them when the loop handles the whole trace, no error escapes and no completion of that connection failed |
| EchoServer.QuietShutdown | src/main.cpp:164-175 | when every error that occurs is of its handler's shutdown class, `join()` does not throw |
| EchoServer.FatalSurfaces | src/main.cpp:165-171 | a non-shutdown accept error stops the loop, and `join()` rethrows exactly that error |
| EchoServer.SessionFatalSurfaces | src/main.cpp:67-73 | a non-shutdown session error stops the server's loop, and `join()` rethrows exactly that error |
| EchoServer.AcceptLoop | src/main.cpp:164-175 | `n` successful accepts start `n` sessions numbered in accept order, each issuing its first read before the accept is re-armed, with one accept left outstanding |
| StartBarrier.PoolSize | src/main.cpp:301-302 | the pool size `max(hw, 2) - 1` is at least 1 |
| StartBarrier.Pass | src/main.cpp:314-318 | a thread getting past sets `started`; the clients are started, all of them in order, exactly when `started` was still false, and otherwise nothing is started |
| StartBarrier.Step | src/main.cpp:309-318 | an arrival counts one more thread up to `thread_max`; a thread passes only once the count is complete; a step starts the clients only when none were started before |
| StartBarrier.StepKeepsInv | src/main.cpp:305-320 | every step under the mutex keeps the barrier invariant: nobody is past before all `thread_max` threads arrived, and the clients were started, all exactly once, exactly when a thread got past |
| StartBarrier.RunKeepsInv | src/main.cpp:305-320 | in any interleaving of arrivals and wake-ups the invariant holds throughout and `thread_cur == min(thread_max, arrivals)` |
| StartBarrier.LastArrivalStarts | src/main.cpp:310-318 | the arrival that completes the count passes without waiting, is the first through `exchange(started, true)`, and starts every client |
| StartBarrier.WakesRelease | src/main.cpp:311-318 | after the count is complete, each wake-up releases one waiting thread and starts no client again |
| StartBarrier.AllThreadsPass | src/main.cpp:305-320 | with all threads arrived and the waiters woken, every thread is past the barrier and the client start loop ran exactly once |
| Sorting.Select | src/main.cpp:387-388 | the element `nth_element` places at position `k` is an element of the input of rank `k`: at most `k` elements are smaller and more than `k` are at most it |
| Sorting.RankDeterminesSelect | src/main.cpp:387-388 | that rank condition determines the element uniquely |
| Report.TotalBytes | src/main.cpp:369 | `connections * messages * bytes` in 64-bit unsigned arithmetic, exact whenever the product fits |
| Report.Latencies | src/main.cpp:379-381 | one latency `recv - send` per message, in message order |
| Report.Pool | src/main.cpp:376-384 | every pooled duration is the latency of some message of some client |
| Report.PoolLayout | src/main.cpp:376-381 | the pool holds exactly as many durations as there are samples, with the latency of message `j` of client `i` at position `Offset(i) + j`: client by client, in message order, each once |
| Report.PoolLength | src/main.cpp:373-384 | with `M` messages per client the pooled durations number `C * M` |
| Report.PoolHasEverySample | src/main.cpp:376-384 | every message of every client contributes its latency to the pool |
| Report.MinOf | src/main.cpp:374-382 | the running minimum is an element of the durations and no duration is smaller |
| Report.MaxOf | src/main.cpp:375-383 | the running maximum is an element of the durations and no duration is larger |
| Report.MeanAsWritten | src/main.cpp:386 | as written, the mean is the floor of the sum reduced modulo 2^64 (its 64-bit unsigned reinterpretation) divided by the count, for every sum; it is the floor of the mean when the sum is a non-negative 64-bit value |
| Report.MeanWrapsOnNegativeSum | src/main.cpp:386 | as written, a single latency of -1 ns averages to 2^64 - 1 ns; the corrected mean gives -1 ns |
| Report.MeanAgrees | src/main.cpp:386 | as written and corrected means agree on every non-negative 64-bit sum |
| Report.Mean | src/main.cpp:386 | the mean is the sum divided by the count, truncated toward zero, with the matching floor or ceiling bounds by sign |
| Report.Aggregate | src/main.cpp:369-388 | for a non-empty pool: total bytes; count equals the pool size; min and max are pool elements bounding every duration; `avg == sum / count`; `med` has rank `count / 2`; `beg` and `end` are some client's begin and end and bound every client's; `avg` equals line 386 as written whenever the sum is a non-negative 64-bit value |
| Report.FiveSamples | src/main.cpp:374-388 | latencies 1..5 give minimum 1, maximum 5, mean 3, median 3 and count 5 |
| Report.TwoByFive | src/main.cpp:369 | two connections of five 100-byte messages move 1000 bytes |

## Left out

- Real threads, mutexes, condition variables and `io_context::run` are left out. The start barrier is a sequential trace of what threads do while holding the mutex. A waiting thread waking, from `notify_one` or spuriously, is a `Wake` event. That `notify_one` eventually wakes someone is a liveness property and is not modelled.
- CPU affinity (`SetThreadAffinityMask`, `pthread_setaffinity_np`) is left out. It is platform plumbing with no effect on the engine's logic.
- Sockets, resolving, binding, listening and connecting are left out. The transport is an event source, and the only transport logic kept is the two `is_shutdown` classes of src/net.h and src/asio.h.
- Floating-point output is left out: MiB, seconds, MiB/s, milliseconds and stream formatting.
- Command-line parsing, the usage text, `main`, and the printing of errors caught by worker threads are left out.
- Clock readings are not computed. Timestamps are integers supplied with each client's run (`Report.ClientRun`). The model does not relate a reply's receive stamp to its send stamp across the wire.
- Byte-level interleaving of concurrent echo writes on one socket is left out. The server can have several writes in flight on one connection. Echo fidelity is stated at the level of issue order.
- The session's receive buffer is uninitialised in the source. It is modelled as zeros because its initial contents are never written back.
- Events that the transport cannot deliver are skipped by the folds. An example is a completion for an operation that is not outstanding.
- ClientRecv.ReceiveCounts: requires `S > 0`. The source also accepts `bytes == 0`, and then the first read stamps every message. `ClientRecv.Step` and `ClientRecv.Feed` model that case; only the closed forms `Whole(M, S, T)` and `min(M, T / S)` need `S > 0`.
- ClientRecv.ChunkingIndependence: requires `S > 0`, for the same reason.
- ClientRecv.FeedCountsBytes: requires `S > 0`, for the same reason.
- Report.Mean: the 64-bit signed overflow of `accumulate` over the durations is not modelled. The sum is unbounded.
- Report.Aggregate: uses the corrected `Report.Mean` for `avg` rather than the unsigned division as written (see Findings). The two agree whenever the sum is a non-negative 64-bit value, which is stated in its contract.
- EchoServer.SessionRouting: stated for traces without `stop()` in which no error escapes. After either, `EchoServer.Feed` runs no handler at all, and `EchoServer.HandledRouting` states the same routing for every trace over the events that were handled. A session accepted during the trace is covered by splitting the trace at its accept (`EchoServer.FeedAppend`, `EchoServer.AcceptedSessionRouting`).
- EchoServer.OnEvent: `stop()` is modelled as the code writes it. `io_context::stop()` ends the event loop, so no further handler runs, including an aborted accept's. It is not modelled as cancelling the outstanding accept.

## Findings

| source | as written | input that shows it | evidently intended | confidence | as-written member | corrected member |
|---|---|---|---|---|---|---|
| src/main.cpp:386 | `accumulate(durations, 0ns) / durations.size()` divides a signed nanosecond count by `std::size_t`. The common type is unsigned, so a negative sum wraps modulo 2^64 | a client whose connection failed leaves the receive stamp of a sent message at the clock's epoch, so its latency is negative; durations `[-1]` give an average of 2^64 - 1 ns | signed mean of the latencies, here -1 ns | not executed; follows from the usual arithmetic conversions of `std::chrono::duration` division | Report.MeanWrapsOnNegativeSum | Report.Mean |

=== FILE: client_recv.dfy ===
/**
 The receive chain of a benchmark client. Replies arrive as a byte stream
 that the transport cuts into reads of arbitrary size; the chain counts bytes
 and stamps message `index` each time a whole message's worth has arrived.
 The chain state is the cursor `(index, pos)`: the next message to complete
 and the bytes of it already held.
 */
module ClientRecv {
  import opened Transport
  import opened Numbers

  /** The cursor after the stamping loop, and the message indices it stamped,
      in stamping order. */
  datatype Drained = Drained(index: nat, pos: nat, stamped: seq<nat>)

  /** `log` names messages `lo`, `lo + 1`, ... in this order, each once. */
  predicate Consecutive(log: seq<nat>, lo: nat) {
    forall k :: 0 <= k < |log| ==> log[k] == lo + k
  }

  /** `index` is how many messages `bytes` received bytes complete when at most
      `m` are expected: `min(m, bytes / s)`, stated without division. */
  predicate CountsWhole(m: nat, s: nat, bytes: nat, index: nat) {
    index <= m && index * s <= bytes && (index == m || bytes < (index + 1) * s)
  }

  /** The stamping loop of the read handler: while a whole message is held and
      messages are still expected, stamp message `i`, drop its bytes and move
      to the next one. */
  function Drain(m: nat, s: nat, i: nat, p: nat): (r: Drained)
    requires i <= m
    ensures i <= r.index <= m
    ensures r.index * s + r.pos == i * s + p
    ensures r.index == m || r.pos < s
    ensures |r.stamped| == r.index - i && Consecutive(r.stamped, i)
    decreases m - i
  {
    if p >= s && i < m then
      var rest := Drain(m, s, i + 1, p - s);
      Drained(rest.index, rest.pos, [i] + rest.stamped)
    else
      Drained(i, p, [])
  }

  /** The arithmetic of one read completion of `size` bytes at cursor
      `(index, pos)`: bytes are conserved, the cursor never passes the
      message count, and on exit either every message is stamped or less
      than one message is held. */
  function Step(m: nat, s: nat, index: nat, pos: nat, size: nat): (r: Drained)
    requires index <= m
    ensures index <= r.index <= m
    ensures r.index * s + r.pos == index * s + pos + size
    ensures r.index == m || r.pos < s
    ensures |r.stamped| == r.index - index && Consecutive(r.stamped, index)
  {
    Drain(m, s, index, pos + size)
  }

  /** Where the chain is: a read outstanding, finished (end time recorded, no
      read outstanding), or stopped by a transport error. */
  datatype Phase = Reading | Ended | Faulted(err: Error)

  datatype Chain = Chain(index: nat, pos: nat, phase: Phase)

  /** The states the chain can be in: the cursor never passes the message
      count, a read is outstanding only while messages are missing, and the
      end time is recorded only once all of them are in. */
  predicate Valid(m: nat, c: Chain) {
    && c.index <= m
    && (c.phase.Reading? ==> c.index < m)
    && (c.phase.Ended? ==> c.index == m)
  }

  /** `recv(index, pos)`: with every message in, record the end time and
      issue nothing more; otherwise issue the next read. */
  function Enter(m: nat, index: nat, pos: nat): (c: Chain)
    requires index <= m
    ensures Valid(m, c) && !c.phase.Faulted?
    ensures c.index == index && c.pos == pos
  {
    Chain(index, pos, if index >= m then Ended else Reading)
  }

  /** `start()` enters the chain at `(0, 0)`. */
  function Start(m: nat): (c: Chain)
    ensures Valid(m, c) && c.index == 0 && c.pos == 0
    ensures c.phase.Ended? <==> m == 0
    ensures c.phase.Reading? <==> m > 0
  {
    Enter(m, 0, 0)
  }

  /** The read handler. Every client transport error is fatal, whatever its
      class; a successful read advances the cursor by `Step` and re-enters
      the chain. */
  function OnRead(m: nat, s: nat, c: Chain, ev: Completion): (r: (Chain, seq<nat>))
    requires Valid(m, c) && c.phase.Reading?
    ensures Valid(m, r.0) && c.index <= r.0.index
    ensures |r.1| == r.0.index - c.index && Consecutive(r.1, c.index)
    ensures ev.Failed? ==> r == (Chain(c.index, c.pos, Faulted(ev.err)), [])
    ensures ev.Done? ==> r.0.index * s + r.0.pos == c.index * s + c.pos + ev.size
    ensures ev.Done? ==> !r.0.phase.Faulted?
    ensures ev.Done? ==> (r.0.phase.Ended? <==> r.0.index == m)
    ensures ev.Done? ==> r.0.index == m || r.0.pos < s
  {
    match ev
    case Failed(e) => (Chain(c.index, c.pos, Faulted(e)), [])
    case Done(size) =>
      var d := Step(m, s, c.index, c.pos, size);
      (Enter(m, d.index, d.pos), d.stamped)
  }

  /** Delivers completions to the chain in order. Once the chain has ended or
      failed no read is outstanding, so the remaining completions are not
      delivered. The second component lists the message indices stamped. */
  function Feed(m: nat, s: nat, c: Chain, evs: seq<Completion>): (r: (Chain, seq<nat>))
    requires Valid(m, c)
    ensures Valid(m, r.0) && c.index <= r.0.index
    ensures |r.1| == r.0.index - c.index && Consecutive(r.1, c.index)
    ensures !c.phase.Reading? ==> r == (c, [])
    ensures !c.phase.Faulted? && AllDone(evs) ==> !r.0.phase.Faulted?
    decreases |evs|
  {
    if |evs| == 0 || !c.phase.Reading? then (c, [])
    else
      assert forall k :: 0 <= k < |evs[1..]| ==> evs[1..][k] == evs[k + 1];
      var (c1, st1) := OnRead(m, s, c, evs[0]);
      var (c2, st2) := Feed(m, s, c1, evs[1..]);
      (c2, st1 + st2)
  }

  /** A whole run of the receive chain from `start()` over a sequence of read
      completions. */
  function Receive(m: nat, s: nat, evs: seq<Completion>): (r: (Chain, seq<nat>))
    ensures Valid(m, r.0)
    ensures |r.1| == r.0.index && Consecutive(r.1, 0)
  {
    Feed(m, s, Start(m), evs)
  }

  /** Bytes delivered by the successful reads in `evs`. */
  function Total(evs: seq<Completion>): nat {
    if |evs| == 0 then 0
    else (if evs[0].Done? then evs[0].size else 0) + Total(evs[1..])
  }

  lemma MulStep(i: nat, s: nat)
    ensures (i + 1) * s == i * s + s
  {
  }

  lemma MulMono(i: nat, j: nat, s: nat)
    requires i <= j
    ensures i * s <= j * s
  {
  }

  /** Over successful reads, the chain stamps exactly `min(m, T / s)`
      messages, where `T` is every byte held so far; while it is still
      reading it has consumed every delivered byte. */
  lemma {:induction false} FeedCountsBytes(m: nat, s: nat, c: Chain, evs: seq<Completion>)
    requires s > 0 && Valid(m, c) && !c.phase.Faulted? && AllDone(evs)
    requires c.phase.Reading? ==> c.pos < s
    ensures CountsWhole(m, s, c.index * s + c.pos + Total(evs), Feed(m, s, c, evs).0.index)
    ensures Feed(m, s, c, evs).0.index < m ==>
              Feed(m, s, c, evs).0.index * s + Feed(m, s, c, evs).0.pos == c.index * s + c.pos + Total(evs)
    ensures !Feed(m, s, c, evs).0.phase.Faulted?
    decreases |evs|
  {
    var r := Feed(m, s, c, evs).0;
    var t := c.index * s + c.pos + Total(evs);
    if !c.phase.Reading? {
      assert c.index == m;
    } else if |evs| == 0 {
      assert r == c;
      MulStep(c.index, s);
    } else {
      var (c1, _) := OnRead(m, s, c, evs[0]);
      AllDoneTail(evs);
      FeedCountsBytes(m, s, c1, evs[1..]);
      assert Feed(m, s, c, evs).0 == Feed(m, s, c1, evs[1..]).0;
      assert c1.index * s + c1.pos + Total(evs[1..]) == t;
    }
  }

  /** `CountsWhole` pins the count down to `min(m, bytes / s)`. */
  lemma CountsWholeIsDiv(m: nat, s: nat, bytes: nat, index: nat)
    requires s > 0 && CountsWhole(m, s, bytes, index)
    ensures index == Min(m, bytes / s)
  {
    var q := bytes / s;
    assert q * s <= bytes < (q + 1) * s;
    if q < index {
      MulMono(q + 1, index, s);
    } else if index < q && index < m {
      MulMono(index + 1, q, s);
    }
  }

  /** The reference count: how many whole messages of `s` bytes, at most
      `m`, `t` bytes hold, taking one message off at a time. */
  function Whole(m: nat, s: nat, t: nat): nat
    requires s > 0
    decreases m
  {
    if m == 0 || t < s then 0 else 1 + Whole(m - 1, s, t - s)
  }

  lemma {:induction false} WholeCounts(m: nat, s: nat, t: nat)
    requires s > 0
    ensures CountsWhole(m, s, t, Whole(m, s, t))
    decreases m
  {
    if m > 0 && t >= s {
      var w := Whole(m - 1, s, t - s);
      WholeCounts(m - 1, s, t - s);
      MulStep(w, s);
      MulStep(w + 1, s);
    }
  }

  /** `CountsWhole` holds of exactly one count, the reference one. */
  lemma {:induction false} CountsWholeIsWhole(m: nat, s: nat, bytes: nat, index: nat)
    requires s > 0 && CountsWhole(m, s, bytes, index)
    ensures index == Whole(m, s, bytes)
    decreases m
  {
    if m == 0 {
    } else if bytes < s {
      if index > 0 {
        MulMono(1, index, s);
      }
    } else {
      assert index > 0;
      MulStep(index - 1, s);
      CountsWholeIsWhole(m - 1, s, bytes - s, index - 1);
    }
  }

  /** The reference count is `min(m, t / s)`. */
  lemma WholeIsDiv(m: nat, s: nat, t: nat)
    requires s > 0
    ensures Whole(m, s, t) == Min(m, t / s)
  {
    WholeCounts(m, s, t);
    CountsWholeIsDiv(m, s, t, Whole(m, s, t));
  }

  /** From `start()`, successful reads delivering `T` bytes in all stamp
      messages `0 .. Whole(m, s, T) - 1` (that is, `min(m, T / s)` of them),
      each once and in order; the end time is recorded exactly when all `m`
      are in, and until then every byte has been consumed. */
  lemma ReceiveCounts(m: nat, s: nat, evs: seq<Completion>)
    requires s > 0 && AllDone(evs)
    ensures Receive(m, s, evs).0.index == Whole(m, s, Total(evs))
    ensures Receive(m, s, evs).0.phase.Ended? <==> Receive(m, s, evs).0.index == m
    ensures Receive(m, s, evs).0.index < m ==>
              Receive(m, s, evs).0.pos == Total(evs) - Receive(m, s, evs).0.index * s
    ensures !Receive(m, s, evs).0.phase.Faulted?
  {
    var c := Start(m);
    FeedCountsBytes(m, s, c, evs);
    CountsWholeIsWhole(m, s, Total(evs), Receive(m, s, evs).0.index);
  }

  /** Reassembly depends only on how many bytes arrived, not on how the
      transport split them into reads. */
  lemma ChunkingIndependence(m: nat, s: nat, a: seq<Completion>, b: seq<Completion>)
    requires s > 0 && AllDone(a) && AllDone(b) && Total(a) == Total(b)
    ensures Receive(m, s, a).0.index == Receive(m, s, b).0.index
    ensures Receive(m, s, a).0.index < m ==> Receive(m, s, a).0 == Receive(m, s, b).0
    ensures Receive(m, s, a).1 == Receive(m, s, b).1
  {
    var ra := Receive(m, s, a);
    var rb := Receive(m, s, b);
    ReceiveCounts(m, s, a);
    ReceiveCounts(m, s, b);
    var t := Total(a);
    assert ra.0.index == rb.0.index;
    if ra.0.index < m {
      assert ra.0.pos == rb.0.pos;
      assert ra.0.phase == Reading == rb.0.phase;
    }
    ConsecutiveUnique(ra.1, rb.1, 0);
  }

  /** A consecutive log is determined by its start and its length. */
  lemma ConsecutiveUnique(x: seq<nat>, y: seq<nat>, lo: nat)
    requires |x| == |y| && Consecutive(x, lo) && Consecutive(y, lo)
    ensures x == y
  {
  }

  /** A message that arrives as two reads of half its size is stamped once,
      by the second read, and nothing of the next message is consumed. */
  lemma TwoHalves(m: nat, s: nat)
    requires m >= 1 && s > 0 && s % 2 == 0
    ensures Receive(m, s, [Done(s / 2)]) == (Chain(0, s / 2, Reading), [])
    ensures Receive(m, s, [Done(s / 2), Done(s / 2)])
            == (Chain(1, 0, if m == 1 then Ended else Reading), [0])
  {
    var c0 := Start(m);
    var (c1, l1) := OnRead(m, s, c0, Done(s / 2));
    assert c1 == Chain(0, s / 2, Reading) && l1 == [];
    assert [Done(s / 2)][1..] == [];
    assert Feed(m, s, c1, []) == (c1, []);
    assert Receive(m, s, [Done(s / 2)]) == (c1, l1 + []);
    var (c2, l2) := OnRead(m, s, c1, Done(s / 2));
    assert Drain(m, s, 1, 0) == Drained(1, 0, []);
    assert Drain(m, s, 0, s) == Drained(1, 0, [0]);
    assert Step(m, s, 0, s / 2, s / 2) == Drained(1, 0, [0]);
    assert c2 == Chain(1, 0, if m == 1 then Ended else Reading) && l2 == [0];
    assert [Done(s / 2), Done(s / 2)][1..] == [Done(s / 2)];
    assert Feed(m, s, c2, []) == (c2, []);
    assert Feed(m, s, c1, [Done(s / 2)]) == (c2, l2 + []);
    assert Receive(m, s, [Done(s / 2), Done(s / 2)]) == (c2, l1 + (l2 + []));
    assert l1 + (l2 + []) == [0];
  }
}

=== FILE: client_send.dfy ===
/**
 The send side of a benchmark client: the payload every message carries and
 the send chain, which writes messages `0 .. m - 1` strictly one after the
 other, each only after the previous write completed.
 */
module ClientSend {
  import opened Transport
  import opened Numbers

  /** ASCII `'0'`. */
  const DigitZero: byte := 48

  /** Byte `i` of the payload: the ASCII decimal digit of `i mod 10`. */
  function Digit(i: nat): (d: byte)
    ensures DigitZero <= d <= DigitZero + 9
  {
    DigitZero + (i % 10) as byte
  }

  /** Builds the payload of `bytes` bytes: a zero-filled buffer whose byte `i`
      is then overwritten with `Digit(i)`. */
  method MakePayload(bytes: nat) returns (message: seq<byte>)
    ensures |message| == bytes
    ensures forall i :: 0 <= i < bytes ==> message[i] == Digit(i)
  {
    message := seq(bytes, _ => 0);
    var i := 0;
    while i < bytes
      invariant i <= bytes && |message| == bytes
      invariant forall k :: 0 <= k < i ==> message[k] == Digit(k)
    {
      message := message[i := Digit(i)];
      i := i + 1;
    }
  }

  /** Where the send chain is: the write of message `index` is outstanding,
      every message has been written, or a write failed. */
  datatype SendState = Writing(index: nat) | Finished | Faulted(err: Error)

  /** What the chain does, in order: stamp the send time of a message, or
      issue the write of a message with the given bytes. */
  datatype SendAction = StampSend(index: nat) | IssueWrite(index: nat, data: seq<byte>)

  /** The reference schedule: for each message `lo .. hi - 1` in index order,
      its send time is stamped and then its write is issued with the payload. */
  function Schedule(payload: seq<byte>, lo: nat, hi: nat): (r: seq<SendAction>)
    requires lo <= hi
    ensures |r| == 2 * (hi - lo)
    decreases hi - lo
  {
    if lo == hi then [] else [StampSend(lo), IssueWrite(lo, payload)] + Schedule(payload, lo + 1, hi)
  }

  /** Entry `2k` of the schedule stamps message `lo + k` and entry `2k + 1`
      writes it: indices strictly increase, each message is written once,
      after its stamp, and always with the same payload. */
  lemma {:induction false} ScheduleShape(payload: seq<byte>, lo: nat, hi: nat)
    requires lo <= hi
    ensures forall k :: 0 <= k < hi - lo ==>
              Schedule(payload, lo, hi)[2 * k] == StampSend(lo + k)
              && Schedule(payload, lo, hi)[2 * k + 1] == IssueWrite(lo + k, payload)
    decreases hi - lo
  {
    if lo < hi {
      var r := Schedule(payload, lo, hi);
      var rest := Schedule(payload, lo + 1, hi);
      ScheduleShape(payload, lo + 1, hi);
      forall k | 0 <= k < hi - lo
        ensures r[2 * k] == StampSend(lo + k) && r[2 * k + 1] == IssueWrite(lo + k, payload)
      {
        if k > 0 {
          assert r[2 * k] == rest[2 * (k - 1)];
          assert r[2 * k + 1] == rest[2 * (k - 1) + 1];
        }
      }
    }
  }

  /** `send(index)`: past the last message nothing happens; otherwise the
      send time of message `index` is stamped and then one write of the whole
      payload is issued. */
  function Send(m: nat, payload: seq<byte>, index: nat): (r: (SendState, seq<SendAction>))
    ensures index >= m ==> r == (Finished, [])
    ensures index < m ==> r == (Writing(index), Schedule(payload, index, index + 1))
  {
    if index >= m then (Finished, [])
    else
      assert Schedule(payload, index + 1, index + 1) == [];
      assert [StampSend(index), IssueWrite(index, payload)] + [] == [StampSend(index), IssueWrite(index, payload)];
      (Writing(index), [StampSend(index), IssueWrite(index, payload)])
  }

  /** Consecutive stretches of the schedule join up. */
  lemma {:induction false} ScheduleAppend(payload: seq<byte>, lo: nat, mid: nat, hi: nat)
    requires lo <= mid <= hi
    ensures Schedule(payload, lo, mid) + Schedule(payload, mid, hi) == Schedule(payload, lo, hi)
    decreases mid - lo
  {
    if lo < mid {
      ScheduleAppend(payload, lo + 1, mid, hi);
      assert Schedule(payload, lo, mid) + Schedule(payload, mid, hi)
          == [StampSend(lo), IssueWrite(lo, payload)] + (Schedule(payload, lo + 1, mid) + Schedule(payload, mid, hi));
    }
  }

  /** The write handler of message `index`: every client transport error is
      fatal; success sends message `index + 1`. */
  function OnWrite(m: nat, payload: seq<byte>, st: SendState, ev: Completion): (r: (SendState, seq<SendAction>))
    requires st.Writing?
    ensures ev.Failed? ==> r == (Faulted(ev.err), [])
    ensures ev.Done? && st.index + 1 >= m ==> r == (Finished, [])
    ensures ev.Done? && st.index + 1 < m ==>
              r == (Writing(st.index + 1), [StampSend(st.index + 1), IssueWrite(st.index + 1, payload)])
  {
    match ev
    case Failed(e) => (Faulted(e), [])
    case Done(_) => Send(m, payload, st.index + 1)
  }

  /** Delivers write completions in order. Only a chain in `Writing` has a
      write outstanding; once it has finished or failed the remaining
      completions are not delivered. */
  function Feed(m: nat, payload: seq<byte>, st: SendState, evs: seq<Completion>): (r: (SendState, seq<SendAction>))
    ensures !st.Writing? ==> r == (st, [])
    decreases |evs|
  {
    if |evs| == 0 || !st.Writing? then (st, [])
    else
      var (s1, a1) := OnWrite(m, payload, st, evs[0]);
      var (s2, a2) := Feed(m, payload, s1, evs[1..]);
      (s2, a1 + a2)
  }

  /** A whole run of the send chain: `start()` calls `send(0)`, then the
      write completions arrive. */
  function Run(m: nat, payload: seq<byte>, evs: seq<Completion>): (r: (SendState, seq<SendAction>))
    ensures m == 0 ==> r == (Finished, [])
    ensures m > 0 ==> |r.1| >= 2 && r.1[0] == StampSend(0) && r.1[1] == IssueWrite(0, payload)
  {
    var (s0, a0) := Send(m, payload, 0);
    var (s1, a1) := Feed(m, payload, s0, evs);
    (s1, a0 + a1)
  }

  /** From an outstanding write of message `k`, successful completions send
      the following messages in order, one per completion, until message
      `m - 1` has been written. */
  lemma {:induction false} FeedInOrder(m: nat, payload: seq<byte>, k: nat, evs: seq<Completion>)
    requires k < m && AllDone(evs)
    ensures Feed(m, payload, Writing(k), evs)
            == (if k + |evs| >= m then Finished else Writing(k + |evs|),
                Schedule(payload, k + 1, Min(k + 1 + |evs|, m)))
    decreases |evs|
  {
    if |evs| == 0 {
    } else {
      AllDoneTail(evs);
      assert OnWrite(m, payload, Writing(k), evs[0]) == Send(m, payload, k + 1);
      if k + 1 >= m {
        assert Feed(m, payload, Finished, evs[1..]) == (Finished, []);
        assert Feed(m, payload, Writing(k), evs) == (Finished, [] + []);
        assert Min(k + 1 + |evs|, m) == k + 1;
        assert Schedule(payload, k + 1, k + 1) == [] == [] + [];
      } else {
        FeedInOrder(m, payload, k + 1, evs[1..]);
        ScheduleAppend(payload, k + 1, k + 2, Min(k + 1 + |evs|, m));
      }
    }
  }

  /** Issue order of the send chain: after `n` successful write completions
      it has stamped and written messages `0 .. min(n + 1, m) - 1` in index
      order, each stamp before its write, every write carrying the same
      payload; it has message `n` outstanding while `n < m` and has finished
      otherwise. */
  lemma SendInOrder(m: nat, payload: seq<byte>, evs: seq<Completion>)
    requires AllDone(evs)
    ensures Run(m, payload, evs)
            == (if |evs| >= m then Finished else Writing(|evs|),
                Schedule(payload, 0, Min(|evs| + 1, m)))
  {
    if m > 0 {
      FeedInOrder(m, payload, 0, evs);
      ScheduleAppend(payload, 0, 1, Min(|evs| + 1, m));
    } else {
      assert Feed(m, payload, Finished, evs) == (Finished, []);
      assert Run(m, payload, evs) == (Finished, [] + []);
      assert Schedule(payload, 0, 0) == [] == [] + [];
    }
  }

  /** A failed write stops the chain: nothing more is stamped or written. */
  lemma {:induction false} FeedStopsAtError(m: nat, payload: seq<byte>, k: nat, oks: seq<Completion>,
                                            e: Error, rest: seq<Completion>)
    requires k < m && k + |oks| < m && AllDone(oks)
    ensures Feed(m, payload, Writing(k), oks + [Failed(e)] + rest)
            == (Faulted(e), Schedule(payload, k + 1, k + 1 + |oks|))
    decreases |oks|
  {
    var evs := oks + [Failed(e)] + rest;
    if |oks| == 0 {
      assert evs[0] == Failed(e);
      assert Feed(m, payload, Faulted(e), evs[1..]) == (Faulted(e), []);
      assert Feed(m, payload, Writing(k), evs) == (Faulted(e), [] + []);
      assert Schedule(payload, k + 1, k + 1) == [] == [] + [];
    } else {
      AllDoneTail(oks);
      assert evs[0] == oks[0];
      assert evs[1..] == oks[1..] + [Failed(e)] + rest;
      FeedStopsAtError(m, payload, k + 1, oks[1..], e, rest);
      ScheduleAppend(payload, k + 1, k + 2, k + 1 + |oks|);
    }
  }

  /** A run whose `n`-th write (counting from zero) fails has stamped and
      written exactly messages `0 .. n` and ends faulted with that error. */
  lemma SendStopsAtError(m: nat, payload: seq<byte>, oks: seq<Completion>, e: Error, rest: seq<Completion>)
    requires |oks| < m && AllDone(oks)
    ensures Run(m, payload, oks + [Failed(e)] + rest) == (Faulted(e), Schedule(payload, 0, |oks| + 1))
  {
    FeedStopsAtError(m, payload, 0, oks, e, rest);
    ScheduleAppend(payload, 0, 1, |oks| + 1);
  }
}

=== FILE: echo_server.dfy ===
/**
 The echo server: an accept loop on its own event loop. Each accepted
 connection gets a started echo session and the accept is re-armed. An
 aborted accept ends the loop quietly; any other accept error, and any
 error escaping a session handler, ends the event loop and is captured
 for `join()` to rethrow.
 */
module EchoServer {
  import opened Transport
  import EchoSession

  /** Events on the server's event loop: accept completions, a completion
      addressed to session `id` (sessions are numbered in accept order), and
      `stop()`. */
  datatype Event =
    | Accepted
    | AcceptFailed(err: Error)
    | ToSession(id: nat, ev: EchoSession.Event)
    | Stop

  /** What the server issues: an accept, or an operation of session `id`. */
  datatype Output = ArmAccept | SessionIo(id: nat, io: EchoSession.Io)

  /** `accepting`: an accept is outstanding; `running`: the event loop still
      runs handlers; `fault`: the error captured from a handler, if any. */
  datatype Server = Server(accepting: bool, sessions: seq<EchoSession.Session>, running: bool, fault: Status)

  predicate Valid(sv: Server) {
    forall i :: 0 <= i < |sv.sessions| ==> EchoSession.Valid(sv.sessions[i])
  }

  /** The constructor: the first accept is armed before the server thread
      starts running the event loop. */
  function Create(): (r: (Server, seq<Output>))
    ensures Valid(r.0) && r.0.accepting && r.0.running && r.0.fault.Live? && r.0.sessions == []
    ensures r.1 == [ArmAccept]
  {
    (Server(true, [], true, Live), [ArmAccept])
  }

  /** Tags a session's operations with its number. */
  function Tag(id: nat, ios: seq<EchoSession.Io>): (r: seq<Output>)
    ensures |r| == |ios|
    ensures forall k :: 0 <= k < |ios| ==> r[k] == SessionIo(id, ios[k])
  {
    if |ios| == 0 then [] else [SessionIo(id, ios[0])] + Tag(id, ios[1..])
  }

  /** A completion addressed to session `id` runs that session's handler:
      the session exists, no error has escaped it, and the operation the
      completion belongs to is outstanding. */
  predicate Routed(sv: Server, id: nat, sev: EchoSession.Event) {
    && id < |sv.sessions|
    && sv.sessions[id].status.Live?
    && EchoSession.Pending(sv.sessions[id], sev)
  }

  /** One handler run. A successful accept starts one new session (its first
      read) and then re-arms exactly one accept. An accept error of the
      acceptor's shutdown class ends the loop quietly; any other error is
      captured and stops the event loop. Session completions go to the
      session they belong to. A completion that belongs to no outstanding
      operation is skipped. */
  function OnEvent(sv: Server, ev: Event): (r: (Server, seq<Output>))
    requires Valid(sv) && sv.running && sv.fault.Live?
    ensures Valid(r.0)
    ensures ev.Accepted? && sv.accepting ==>
              && r.0.sessions == sv.sessions + [EchoSession.Start().0]
              && r.1 == [SessionIo(|sv.sessions|, EchoSession.IssueRead), ArmAccept]
              && r.0.accepting && r.0.fault.Live?
    ensures (ev.Accepted? || ev.AcceptFailed?) && !sv.accepting ==> r == (sv, [])
    ensures ev.AcceptFailed? && sv.accepting ==>
              && r.1 == [] && !r.0.accepting && r.0.sessions == sv.sessions
              && r.0.fault == (if IsAcceptorShutdown(ev.err) then Live else Fatal(ev.err))
    ensures ev.ToSession? && !Routed(sv, ev.id, ev.ev) ==> r == (sv, [])
    ensures ev.ToSession? && Routed(sv, ev.id, ev.ev) ==>
              && r.0.sessions == sv.sessions[ev.id := EchoSession.OnEvent(sv.sessions[ev.id], ev.ev).0]
              && r.1 == Tag(ev.id, EchoSession.OnEvent(sv.sessions[ev.id], ev.ev).1)
              && r.0.fault == EchoSession.OnEvent(sv.sessions[ev.id], ev.ev).0.status
              && r.0.accepting == sv.accepting
    ensures ev.Stop? ==> r == (sv.(running := false), [])
    ensures r.0.fault.Fatal? ==>
              || (ev.AcceptFailed? && r.0.fault.err == ev.err && !IsAcceptorShutdown(ev.err))
              || (ev.ToSession? && (ev.ev.ReadFailed? || ev.ev.WriteFailed?)
                  && r.0.fault.err == ev.ev.err && !IsSessionShutdown(ev.ev.err))
    ensures !ev.Stop? ==> r.0.running
    ensures |sv.sessions| <= |r.0.sessions|
  {
    match ev
    case Accepted =>
      if !sv.accepting then (sv, [])
      else
        var (s, io) := EchoSession.Start();
        (sv.(sessions := sv.sessions + [s]), Tag(|sv.sessions|, io) + [ArmAccept])
    case AcceptFailed(e) =>
      if !sv.accepting then (sv, [])
      else if IsAcceptorShutdown(e) then (sv.(accepting := false), [])
      else (sv.(accepting := false, fault := Fatal(e)), [])
    case ToSession(id, sev) =>
      if !Routed(sv, id, sev) then (sv, [])
      else
        var (s, io) := EchoSession.OnEvent(sv.sessions[id], sev);
        (sv.(sessions := sv.sessions[id := s], fault := s.status), Tag(id, io))
    case Stop =>
      (sv.(running := false), [])
  }

  /** Runs the event loop over a sequence of events. It stops running
      handlers after `stop()` and after an error escaped a handler. */
  function Feed(sv: Server, evs: seq<Event>): (r: (Server, seq<Output>))
    requires Valid(sv)
    ensures Valid(r.0)
    ensures !sv.running || sv.fault.Fatal? ==> r == (sv, [])
    ensures |sv.sessions| <= |r.0.sessions|
    decreases |evs|
  {
    if |evs| == 0 || !sv.running || sv.fault.Fatal? then (sv, [])
    else
      var (s1, o1) := OnEvent(sv, evs[0]);
      var (s2, o2) := Feed(s1, evs[1..]);
      (s2, o1 + o2)
  }

  /** `join()`: rethrows the error captured on the server thread, if any. */
  function Join(sv: Server): (r: Status)
    ensures r.Live? <==> sv.fault.Live?
    ensures sv.fault.Fatal? ==> r.Fatal? && r.err == sv.fault.err
  {
    sv.fault
  }

  /** Every error that `ev` carries is of the shutdown class its handler
      checks for. */
  predicate QuietEvent(ev: Event) {
    match ev
    case AcceptFailed(e) => IsAcceptorShutdown(e)
    case ToSession(_, sev) =>
      (sev.ReadFailed? ==> IsSessionShutdown(sev.err)) && (sev.WriteFailed? ==> IsSessionShutdown(sev.err))
    case _ => true
  }

  /** Stopping mid-flight is quiet: when every error that occurs is of its
      shutdown class, nothing is captured and `join()` does not throw. */
  lemma {:induction false} QuietShutdown(sv: Server, evs: seq<Event>)
    requires Valid(sv) && sv.fault.Live?
    requires forall k :: 0 <= k < |evs| ==> QuietEvent(evs[k])
    ensures Join(Feed(sv, evs).0).Live?
    decreases |evs|
  {
    if |evs| > 0 && sv.running {
      var (s1, _) := OnEvent(sv, evs[0]);
      assert QuietEvent(evs[0]);
      assert forall k :: 0 <= k < |evs[1..]| ==> evs[1..][k] == evs[k + 1];
      QuietShutdown(s1, evs[1..]);
    }
  }

  /** A genuine failure is never swallowed: the first handled error outside
      its shutdown class stops the loop and `join()` rethrows exactly it. */
  lemma FatalSurfaces(sv: Server, ev: Event, rest: seq<Event>)
    requires Valid(sv) && sv.running && sv.fault.Live?
    requires ev.AcceptFailed? && sv.accepting && !IsAcceptorShutdown(ev.err)
    ensures Join(Feed(sv, [ev] + rest).0) == Fatal(ev.err)
    ensures Feed(sv, [ev] + rest).1 == []
  {
    var evs := [ev] + rest;
    assert evs[0] == ev && evs[1..] == rest;
    var (s1, _) := OnEvent(sv, ev);
    assert Feed(s1, rest) == (s1, []);
  }

  /** A session error outside the shutdown class surfaces the same way. */
  lemma SessionFatalSurfaces(sv: Server, id: nat, sev: EchoSession.Event, rest: seq<Event>)
    requires Valid(sv) && sv.running && sv.fault.Live?
    requires id < |sv.sessions| && sv.sessions[id].status.Live? && EchoSession.Pending(sv.sessions[id], sev)
    requires (sev.ReadFailed? || sev.WriteFailed?) && !IsSessionShutdown(sev.err)
    ensures Join(Feed(sv, [ToSession(id, sev)] + rest).0) == Fatal(sev.err)
  {
    var evs := [ToSession(id, sev)] + rest;
    assert evs[0] == ToSession(id, sev) && evs[1..] == rest;
    var (s1, _) := OnEvent(sv, ToSession(id, sev));
    assert Feed(s1, rest) == (s1, []);
  }

  /** The accept loop: `n` successful accepts start `n` sessions, numbered in
      accept order, each with its first read issued before the accept is
      re-armed, and leave exactly one accept outstanding. */
  lemma {:induction false} AcceptLoop(sv: Server, n: nat)
    requires Valid(sv) && sv.running && sv.fault.Live? && sv.accepting
    ensures var r := Feed(sv, seq(n, _ => Accepted));
            && r.0.accepting && r.0.running && r.0.fault.Live?
            && |r.0.sessions| == |sv.sessions| + n
            && r.0.sessions[..|sv.sessions|] == sv.sessions
            && |r.1| == 2 * n
            && forall k :: 0 <= k < n ==>
                 r.1[2 * k] == SessionIo(|sv.sessions| + k, EchoSession.IssueRead) && r.1[2 * k + 1] == ArmAccept
    decreases n
  {
    var evs := seq(n, _ => Accepted);
    if n > 0 {
      var (s1, o1) := OnEvent(sv, Accepted);
      assert evs[0] == Accepted;
      assert evs[1..] == seq(n - 1, _ => Accepted);
      AcceptLoop(s1, n - 1);
      var tail := Feed(s1, evs[1..]).1;
      var log := Feed(sv, evs).1;
      assert log == o1 + tail;
      assert s1.sessions[..|sv.sessions|] == sv.sessions;
      forall k | 0 <= k < n
        ensures log[2 * k] == SessionIo(|sv.sessions| + k, EchoSession.IssueRead) && log[2 * k + 1] == ArmAccept
      {
        if k > 0 {
          assert log[2 * k] == tail[2 * (k - 1)];
          assert log[2 * k + 1] == tail[2 * (k - 1) + 1];
        }
      }
    }
  }

  /** The operations the server issued on behalf of session `id`, in issue
      order. */
  function IssuedFor(id: nat, log: seq<Output>): seq<EchoSession.Io> {
    if |log| == 0 then []
    else (if log[0].SessionIo? && log[0].id == id then [log[0].io] else []) + IssuedFor(id, log[1..])
  }

  /** The completions addressed to session `id`, in delivery order. */
  function DeliveredTo(id: nat, evs: seq<Event>): seq<EchoSession.Event> {
    if |evs| == 0 then []
    else (if evs[0].ToSession? && evs[0].id == id then [evs[0].ev] else []) + DeliveredTo(id, evs[1..])
  }

  lemma {:induction false} IssuedForAppend(id: nat, a: seq<Output>, b: seq<Output>)
    ensures IssuedFor(id, a + b) == IssuedFor(id, a) + IssuedFor(id, b)
    decreases |a|
  {
    if |a| == 0 {
      assert a + b == b;
    } else {
      assert (a + b)[1..] == a[1..] + b;
      IssuedForAppend(id, a[1..], b);
    }
  }

  /** Tagged operations belong to the session they are tagged with. */
  lemma {:induction false} IssuedForTag(id: nat, j: nat, ios: seq<EchoSession.Io>)
    ensures IssuedFor(id, Tag(j, ios)) == (if j == id then ios else [])
    decreases |ios|
  {
    if |ios| > 0 {
      var t := Tag(j, ios);
      assert t[1..] == Tag(j, ios[1..]);
      IssuedForTag(id, j, ios[1..]);
      assert ios == [ios[0]] + ios[1..];
    }
  }

  /** One handler run, then the rest of the events. */
  lemma FeedUnfold(sv: Server, evs: seq<Event>)
    requires Valid(sv) && |evs| > 0 && sv.running && sv.fault.Live?
    ensures var (s1, o1) := OnEvent(sv, evs[0]);
            Feed(sv, evs) == (Feed(s1, evs[1..]).0, o1 + Feed(s1, evs[1..]).1)
  {
  }

  /** Running the event loop over `a` and then over `b` is running it over
      `a + b`, so a trace can be split at any point, such as the accept that
      created a session. */
  lemma {:induction false} FeedAppend(sv: Server, a: seq<Event>, b: seq<Event>)
    requires Valid(sv)
    ensures Feed(sv, a + b) == (Feed(Feed(sv, a).0, b).0, Feed(sv, a).1 + Feed(Feed(sv, a).0, b).1)
    decreases |a|
  {
    var none: seq<Output> := [];
    if |a| == 0 {
      assert a + b == b;
      assert none + Feed(sv, b).1 == Feed(sv, b).1;
    } else if !sv.running || sv.fault.Fatal? {
      assert none + none == none;
    } else {
      var ab := a + b;
      assert ab[0] == a[0] && ab[1..] == a[1..] + b;
      var (s1, o1) := OnEvent(sv, a[0]);
      FeedUnfold(sv, a);
      FeedUnfold(sv, ab);
      FeedAppend(s1, a[1..], b);
      var (s2, o2) := Feed(s1, a[1..]);
      var (s3, o3) := Feed(s2, b);
      assert o1 + (o2 + o3) == (o1 + o2) + o3;
    }
  }

  /** Session routing: while the loop runs and no error escapes, the server
      runs session `id` exactly as that session would run alone over the
      completions addressed to it. Its state in the server is the session's
      own result and the operations issued on its behalf are the session's
      own, in the same order; nothing another event does reaches it. */
  lemma {:induction false} SessionRouting(sv: Server, id: nat, evs: seq<Event>)
    requires Valid(sv) && sv.running && sv.fault.Live? && id < |sv.sessions|
    requires forall k :: 0 <= k < |evs| ==> !evs[k].Stop?
    requires Feed(sv, evs).0.fault.Live?
    ensures id < |Feed(sv, evs).0.sessions|
    ensures Feed(sv, evs).0.sessions[id] == EchoSession.Feed(sv.sessions[id], DeliveredTo(id, evs)).0
    ensures IssuedFor(id, Feed(sv, evs).1) == EchoSession.Feed(sv.sessions[id], DeliveredTo(id, evs)).1
    decreases |evs|
  {
    var s := sv.sessions[id];
    if |evs| > 0 {
      var ev := evs[0];
      var rest := evs[1..];
      var (s1, o1) := OnEvent(sv, ev);
      assert forall k :: 0 <= k < |rest| ==> rest[k] == evs[k + 1];
      assert Feed(sv, evs) == (Feed(s1, rest).0, o1 + Feed(s1, rest).1);
      assert s1.fault.Live?;
      SessionRouting(s1, id, rest);
      IssuedForAppend(id, o1, Feed(s1, rest).1);
      var d := DeliveredTo(id, rest);
      assert [] + d == d;
      match ev
      case Accepted =>
        assert DeliveredTo(id, evs) == [] + d;
        if sv.accepting {
          assert s1.sessions[id] == s;
          assert o1[1..] == [ArmAccept] && o1[1..][1..] == [];
          assert IssuedFor(id, o1) == [];
        }
        assert IssuedFor(id, Feed(sv, evs).1) == IssuedFor(id, Feed(s1, rest).1);
      case AcceptFailed(_) =>
        assert DeliveredTo(id, evs) == [] + d;
      case ToSession(j, sev) =>
        if j == id {
          assert DeliveredTo(id, evs) == [sev] + d;
          assert ([sev] + d)[0] == sev && ([sev] + d)[1..] == d;
          if Routed(sv, id, sev) {
            IssuedForTag(id, id, EchoSession.OnEvent(s, sev).1);
          }
        } else {
          assert DeliveredTo(id, evs) == [] + d;
          if Routed(sv, j, sev) {
            IssuedForTag(id, j, EchoSession.OnEvent(sv.sessions[j], sev).1);
            assert s1.sessions[id] == s;
            assert IssuedFor(id, o1) == [];
          }
          assert IssuedFor(id, Feed(sv, evs).1) == IssuedFor(id, Feed(s1, rest).1);
          assert EchoSession.Feed(s, DeliveredTo(id, evs)) == EchoSession.Feed(s1.sessions[id], d);
        }
    }
  }

  /** How many events the loop runs handlers for: all of them, unless
      `stop()` or an escaped error ends the loop first. */
  function Handled(sv: Server, evs: seq<Event>): (n: nat)
    requires Valid(sv)
    ensures n <= |evs|
    ensures n < |evs| ==> !Feed(sv, evs).0.running || Feed(sv, evs).0.fault.Fatal?
    decreases |evs|
  {
    if |evs| == 0 || !sv.running || sv.fault.Fatal? then 0
    else
      FeedUnfold(sv, evs);
      1 + Handled(OnEvent(sv, evs[0]).0, evs[1..])
  }

  lemma {:induction false} DeliveredToAppend(id: nat, a: seq<Event>, b: seq<Event>)
    ensures DeliveredTo(id, a + b) == DeliveredTo(id, a) + DeliveredTo(id, b)
    decreases |a|
  {
    if |a| == 0 {
      assert a + b == b;
    } else {
      assert (a + b)[1..] == a[1..] + b;
      DeliveredToAppend(id, a[1..], b);
    }
  }

  /** One handler run, seen from session `id`: the session's state after it
      is what the session's own handler makes of the completion, if it was
      addressed to it, and the operations issued on its behalf are the
      session's own. */
  lemma RoutingStep(sv: Server, id: nat, ev: Event, d: seq<EchoSession.Event>)
    requires Valid(sv) && sv.running && sv.fault.Live? && id < |sv.sessions|
    ensures id < |OnEvent(sv, ev).0.sessions|
    ensures var (s1, o1) := OnEvent(sv, ev);
            EchoSession.Feed(sv.sessions[id], DeliveredTo(id, [ev]) + d)
            == (EchoSession.Feed(s1.sessions[id], d).0, IssuedFor(id, o1) + EchoSession.Feed(s1.sessions[id], d).1)
  {
    var s := sv.sessions[id];
    var (s1, o1) := OnEvent(sv, ev);
    var none: seq<EchoSession.Io> := [];
    assert [ev][1..] == [];
    match ev
    case Accepted =>
      assert DeliveredTo(id, [ev]) == [];
      assert [] + d == d;
      if sv.accepting {
        assert o1 == [SessionIo(|sv.sessions|, EchoSession.IssueRead), ArmAccept];
        assert o1[1..] == [ArmAccept] && o1[1..][1..] == [];
        assert IssuedFor(id, o1[1..]) == [];
        assert IssuedFor(id, o1) == [];
      }
      assert s1.sessions[id] == s;
      assert none + EchoSession.Feed(s, d).1 == EchoSession.Feed(s, d).1;
    case AcceptFailed(_) =>
      assert DeliveredTo(id, [ev]) == [];
      assert [] + d == d;
      assert none + EchoSession.Feed(s, d).1 == EchoSession.Feed(s, d).1;
    case Stop =>
      assert DeliveredTo(id, [ev]) == [];
      assert [] + d == d;
      assert none + EchoSession.Feed(s, d).1 == EchoSession.Feed(s, d).1;
    case ToSession(j, sev) =>
      if j == id {
        assert DeliveredTo(id, [ev]) == [sev];
        assert ([sev] + d)[0] == sev && ([sev] + d)[1..] == d;
        if Routed(sv, id, sev) {
          IssuedForTag(id, id, EchoSession.OnEvent(s, sev).1);
        } else {
          assert IssuedFor(id, o1) == [];
          assert none + EchoSession.Feed(s, d).1 == EchoSession.Feed(s, d).1;
        }
      } else {
        assert DeliveredTo(id, [ev]) == [];
        assert [] + d == d;
        if Routed(sv, j, sev) {
          IssuedForTag(id, j, EchoSession.OnEvent(sv.sessions[j], sev).1);
        }
        assert IssuedFor(id, o1) == [];
        assert s1.sessions[id] == s;
        assert none + EchoSession.Feed(s, d).1 == EchoSession.Feed(s, d).1;
      }
  }

  /** Session routing over any trace: the server runs session `id` exactly
      as that session would run alone over the completions addressed to it
      among the events it handled, whatever stopped the loop. */
  lemma {:induction false} HandledRouting(sv: Server, id: nat, evs: seq<Event>)
    requires Valid(sv) && id < |sv.sessions|
    ensures id < |Feed(sv, evs).0.sessions|
    ensures Feed(sv, evs).0.sessions[id] == EchoSession.Feed(sv.sessions[id], DeliveredTo(id, evs[..Handled(sv, evs)])).0
    ensures IssuedFor(id, Feed(sv, evs).1) == EchoSession.Feed(sv.sessions[id], DeliveredTo(id, evs[..Handled(sv, evs)])).1
    decreases |evs|
  {
    if |evs| == 0 || !sv.running || sv.fault.Fatal? {
      assert evs[..Handled(sv, evs)] == [];
    } else {
      var ev := evs[0];
      var rest := evs[1..];
      var (s1, o1) := OnEvent(sv, ev);
      FeedUnfold(sv, evs);
      HandledRouting(s1, id, rest);
      IssuedForAppend(id, o1, Feed(s1, rest).1);
      var h := Handled(s1, rest);
      assert Handled(sv, evs) == h + 1;
      assert evs[..h + 1] == [ev] + rest[..h];
      DeliveredToAppend(id, [ev], rest[..h]);
      RoutingStep(sv, id, ev, DeliveredTo(id, rest[..h]));
    }
  }

  /** Echo fidelity carries over to every session the server runs: on any
      trace, whatever stops the loop, what it writes back on behalf of
      session `id` is a prefix of the bytes read on that connection; when the
      loop handles the whole trace, no error escapes and no completion of
      the session failed, it is all of them. */
  lemma ServedEchoFidelity(sv: Server, id: nat, evs: seq<Event>)
    requires Valid(sv) && id < |sv.sessions|
    requires EchoSession.FitsBuffer(DeliveredTo(id, evs))
    ensures EchoSession.Written(IssuedFor(id, Feed(sv, evs).1)) <= EchoSession.Received(DeliveredTo(id, evs))
    ensures && sv.running && sv.fault.Live? && (forall k :: 0 <= k < |evs| ==> !evs[k].Stop?)
            && Feed(sv, evs).0.fault.Live?
            && sv.sessions[id].reading && sv.sessions[id].status.Live? && EchoSession.NoErrors(DeliveredTo(id, evs)) ==>
              EchoSession.Written(IssuedFor(id, Feed(sv, evs).1)) == EchoSession.Received(DeliveredTo(id, evs))
  {
    var s := sv.sessions[id];
    var h := Handled(sv, evs);
    HandledRouting(sv, id, evs);
    assert evs[..h] + evs[h..] == evs;
    DeliveredToAppend(id, evs[..h], evs[h..]);
    var d := DeliveredTo(id, evs[..h]);
    var all := DeliveredTo(id, evs);
    assert EchoSession.FitsBuffer(d) by {
      forall k | 0 <= k < |d| ensures d[k].ReadDone? ==> |d[k].data| <= EchoSession.BufferSize {
        assert d[k] == all[k];
      }
    }
    EchoSession.EchoFidelity(s, d);
    EchoSession.ReceivedAppend(d, DeliveredTo(id, evs[h..]));
    if sv.running && sv.fault.Live? && (forall k :: 0 <= k < |evs| ==> !evs[k].Stop?) && Feed(sv, evs).0.fault.Live? {
      SessionRouting(sv, id, evs);
      EchoSession.EchoFidelity(s, all);
    }
  }

  /** A single successful accept, as a trace. */
  lemma AcceptOne(sv: Server)
    requires Valid(sv) && sv.running && sv.fault.Live? && sv.accepting
    ensures Feed(sv, [Accepted]).0.sessions == sv.sessions + [EchoSession.Start().0]
    ensures Feed(sv, [Accepted]).0.running && Feed(sv, [Accepted]).0.fault.Live?
    ensures IssuedFor(|sv.sessions|, Feed(sv, [Accepted]).1) == [EchoSession.IssueRead]
  {
    FeedUnfold(sv, [Accepted]);
    var (s1, o1) := OnEvent(sv, Accepted);
    assert [Accepted][1..] == [];
    assert o1 + [] == o1;
    var n := |sv.sessions|;
    assert Feed(sv, [Accepted]).1 == o1;
    assert o1[1..] == [ArmAccept] && o1[1..][1..] == [];
    assert IssuedFor(n, [ArmAccept]) == [];
    assert IssuedFor(n, o1) == [EchoSession.IssueRead] + IssuedFor(n, o1[1..]);
  }

  /** A connection accepted mid-trace is served as a fresh session would be
      on its own: on any trace, the server issues its first read and then
      exactly what the session issues over the completions addressed to it
      among the events the loop goes on to handle; when the loop handles
      them all (no `stop()`, no escaped error), over all of them. */
  lemma AcceptedSessionRouting(sv: Server, evs: seq<Event>)
    requires Valid(sv) && sv.running && sv.fault.Live? && sv.accepting
    ensures var n := |sv.sessions|;
            var h := Handled(Feed(sv, [Accepted]).0, evs);
            IssuedFor(n, Feed(sv, [Accepted] + evs).1)
            == [EchoSession.IssueRead] + EchoSession.Feed(EchoSession.Start().0, DeliveredTo(n, evs[..h])).1
    ensures (forall k :: 0 <= k < |evs| ==> !evs[k].Stop?) && Feed(sv, [Accepted] + evs).0.fault.Live? ==>
              var n := |sv.sessions|;
              IssuedFor(n, Feed(sv, [Accepted] + evs).1)
              == [EchoSession.IssueRead] + EchoSession.Feed(EchoSession.Start().0, DeliveredTo(n, evs)).1
  {
    var n := |sv.sessions|;
    FeedAppend(sv, [Accepted], evs);
    AcceptOne(sv);
    var s1 := Feed(sv, [Accepted]).0;
    assert s1.sessions[n] == EchoSession.Start().0;
    HandledRouting(s1, n, evs);
    IssuedForAppend(n, Feed(sv, [Accepted]).1, Feed(s1, evs).1);
    if (forall k :: 0 <= k < |evs| ==> !evs[k].Stop?) && Feed(sv, [Accepted] + evs).0.fault.Live? {
      SessionRouting(s1, n, evs);
    }
  }
}

=== FILE: echo_session.dfy ===
/**
 The server's echo session: one per accepted connection. It reads whatever
 chunk arrives into its receive buffer, copies those bytes into a store of
 their own, writes the store back and immediately reads again, so a read
 and several echo writes can be outstanding at once. A shutdown-class error
 ends the session quietly; any other error escapes the handler.
 */
module EchoSession {
  import opened Transport

  /** Size of the receive buffer, `std::array<char, 8 * 1024>`. */
  const BufferSize: nat := 8 * 1024

  /** What a session issues on its connection. */
  datatype Io = IssueRead | IssueWrite(data: seq<byte>)

  /** Completions delivered to a session: a read that placed `data` at the
      start of the buffer, a failed read, a finished or failed echo write. */
  datatype Event = ReadDone(data: seq<byte>) | ReadFailed(err: Error) | WriteDone | WriteFailed(err: Error)

  /** `reading`: a read is outstanding; `writes`: echo writes outstanding.
      The session object stays alive exactly while one of them is. */
  datatype Session = Session(buffer: seq<byte>, reading: bool, writes: nat, status: Status)

  predicate Valid(s: Session) {
    |s.buffer| == BufferSize
  }

  /** The session holds no outstanding operation, so nothing refers to it
      any more. */
  predicate Released(s: Session) {
    !s.reading && s.writes == 0
  }

  /** `make_shared<session>(socket)->start()`: a fresh session issues its
      first read. The buffer's initial contents are never observed. */
  function Start(): (r: (Session, seq<Io>))
    ensures Valid(r.0) && r.0.reading && r.0.writes == 0 && r.0.status.Live?
    ensures r.1 == [IssueRead]
  {
    (Session(seq(BufferSize, _ => 0), true, 0, Live), [IssueRead])
  }

  /** The transport completes only operations that are outstanding, and a
      read never returns more bytes than the buffer holds. */
  predicate Pending(s: Session, ev: Event) {
    match ev
    case ReadDone(data) => s.reading && |data| <= |s.buffer|
    case ReadFailed(_) => s.reading
    case WriteDone => s.writes > 0
    case WriteFailed(_) => s.writes > 0
  }

  /** A read of `data` overwrites the first `|data|` bytes of the buffer. */
  function Fill(buffer: seq<byte>, data: seq<byte>): (b: seq<byte>)
    requires |data| <= |buffer|
    ensures |b| == |buffer| && b[..|data|] == data && b[|data|..] == buffer[|data|..]
  {
    data + buffer[|data|..]
  }

  /** The read and write handlers. A successful read of `n` bytes copies the
      first `n` buffer bytes into a fresh store, writes it, then reads again.
      An error of the shutdown class ends that chain quietly; any other
      error escapes. */
  function OnEvent(s: Session, ev: Event): (r: (Session, seq<Io>))
    requires Valid(s) && s.status.Live? && Pending(s, ev)
    ensures Valid(r.0)
    ensures ev.ReadDone? ==>
              && r.1 == [IssueWrite(ev.data), IssueRead]
              && r.0.reading && r.0.writes == s.writes + 1 && r.0.status.Live?
    ensures ev.ReadFailed? ==>
              && r.1 == [] && !r.0.reading && r.0.writes == s.writes
              && r.0.status == (if IsSessionShutdown(ev.err) then Live else Fatal(ev.err))
    ensures ev.WriteDone? ==>
              r.1 == [] && r.0.reading == s.reading && r.0.writes == s.writes - 1 && r.0.status.Live?
    ensures ev.WriteFailed? ==>
              && r.1 == [] && r.0.reading == s.reading && r.0.writes == s.writes - 1
              && r.0.status == (if IsSessionShutdown(ev.err) then Live else Fatal(ev.err))
  {
    match ev
    case ReadDone(data) =>
      var b := Fill(s.buffer, data);
      var store := b[..|data|];
      (Session(b, true, s.writes + 1, Live), [IssueWrite(store), IssueRead])
    case ReadFailed(e) =>
      var quiet := s.(reading := false);
      if IsSessionShutdown(e) then (quiet, []) else (quiet.(status := Fatal(e)), [])
    case WriteDone =>
      (s.(writes := s.writes - 1), [])
    case WriteFailed(e) =>
      var quiet := s.(writes := s.writes - 1);
      if IsSessionShutdown(e) then (quiet, []) else (quiet.(status := Fatal(e)), [])
  }

  /** Delivers events in order. A completion for an operation that is not
      outstanding is not this session's and is skipped; once an error has
      escaped, no handler runs any more. */
  function Feed(s: Session, evs: seq<Event>): (r: (Session, seq<Io>))
    requires Valid(s)
    ensures Valid(r.0)
    ensures !s.reading ==> !r.0.reading
    ensures s.status.Fatal? ==> r == (s, [])
    decreases |evs|
  {
    if |evs| == 0 || s.status.Fatal? then (s, [])
    else if !Pending(s, evs[0]) then Feed(s, evs[1..])
    else
      var (s1, io1) := OnEvent(s, evs[0]);
      var (s2, io2) := Feed(s1, evs[1..]);
      (s2, io1 + io2)
  }

  /** The bytes a session wrote back, in issue order. */
  function Written(log: seq<Io>): seq<byte> {
    if |log| == 0 then []
    else (if log[0].IssueWrite? then log[0].data else []) + Written(log[1..])
  }

  /** The bytes the successful reads among `evs` delivered, in order. */
  function Received(evs: seq<Event>): seq<byte> {
    if |evs| == 0 then []
    else (if evs[0].ReadDone? then evs[0].data else []) + Received(evs[1..])
  }

  /** The transport never delivers more bytes than the buffer holds. */
  predicate FitsBuffer(evs: seq<Event>) {
    forall k :: 0 <= k < |evs| ==> evs[k].ReadDone? ==> |evs[k].data| <= BufferSize
  }

  /** The error-free events: every completion succeeded. */
  predicate NoErrors(evs: seq<Event>) {
    forall k :: 0 <= k < |evs| ==> evs[k].ReadDone? || evs[k].WriteDone?
  }

  lemma {:induction false} WrittenAppend(a: seq<Io>, b: seq<Io>)
    ensures Written(a + b) == Written(a) + Written(b)
  {
    if |a| == 0 {
      assert a + b == b;
    } else {
      assert (a + b)[1..] == a[1..] + b;
      WrittenAppend(a[1..], b);
    }
  }

  lemma {:induction false} ReceivedAppend(a: seq<Event>, b: seq<Event>)
    ensures Received(a + b) == Received(a) + Received(b)
  {
    if |a| == 0 {
      assert a + b == b;
    } else {
      assert (a + b)[1..] == a[1..] + b;
      ReceivedAppend(a[1..], b);
    }
  }

  /** The session object is freed after its last completion: once its read
      chain has ended, the completions of its outstanding writes leave it
      holding nothing. */
  lemma {:induction false} ReleasedWhenWritesComplete(s: Session, evs: seq<Event>)
    requires Valid(s) && !s.reading && s.status.Live?
    requires |evs| == s.writes && forall k :: 0 <= k < |evs| ==> evs[k] == WriteDone
    ensures Released(Feed(s, evs).0)
    decreases |evs|
  {
    if |evs| > 0 {
      var (s1, _) := OnEvent(s, evs[0]);
      assert forall k :: 0 <= k < |evs[1..]| ==> evs[1..][k] == evs[k + 1];
      ReleasedWhenWritesComplete(s1, evs[1..]);
    }
  }

  /** Once its read chain has ended a session writes nothing more. */
  lemma {:induction false} NoWritesAfterReadsEnd(s: Session, evs: seq<Event>)
    requires Valid(s) && !s.reading
    ensures Written(Feed(s, evs).1) == []
    decreases |evs|
  {
    if |evs| > 0 && s.status.Live? && Pending(s, evs[0]) {
      var (s1, io1) := OnEvent(s, evs[0]);
      NoWritesAfterReadsEnd(s1, evs[1..]);
      WrittenAppend(io1, Feed(s1, evs[1..]).1);
    } else if |evs| > 0 && s.status.Live? {
      NoWritesAfterReadsEnd(s, evs[1..]);
    }
  }

  /** Echo fidelity: whatever the completions, the bytes written back are a
      prefix of the bytes read, in the same order, and all of them when no
      completion failed. */
  lemma {:induction false} EchoFidelity(s: Session, evs: seq<Event>)
    requires Valid(s) && FitsBuffer(evs)
    ensures Written(Feed(s, evs).1) <= Received(evs)
    ensures s.reading && s.status.Live? && NoErrors(evs) ==> Written(Feed(s, evs).1) == Received(evs)
    decreases |evs|
  {
    if |evs| == 0 || s.status.Fatal? {
    } else {
      var rest := evs[1..];
      assert FitsBuffer(rest) by {
        forall k | 0 <= k < |rest| ensures rest[k].ReadDone? ==> |rest[k].data| <= BufferSize {
          assert rest[k] == evs[k + 1];
        }
      }
      assert NoErrors(evs) ==> NoErrors(rest) by {
        if NoErrors(evs) {
          forall k | 0 <= k < |rest| ensures rest[k].ReadDone? || rest[k].WriteDone? {
            assert rest[k] == evs[k + 1];
          }
        }
      }
      assert NoErrors(evs) ==> evs[0].ReadDone? || evs[0].WriteDone?;
      var head := if evs[0].ReadDone? then evs[0].data else [];
      assert Received(evs) == head + Received(rest);
      if !Pending(s, evs[0]) {
        if evs[0].ReadDone? {
          assert !s.reading;
          NoWritesAfterReadsEnd(s, rest);
        } else {
          EchoFidelity(s, rest);
        }
      } else {
        var (s1, io1) := OnEvent(s, evs[0]);
        EchoFidelity(s1, rest);
        WrittenAppend(io1, Feed(s1, rest).1);
        if evs[0].ReadDone? {
          assert Written(io1) == head by {
            assert io1[1..] == [IssueRead];
            assert io1[1..][1..] == [];
          }
        } else {
          assert io1 == [];
        }
      }
    }
  }

  /** Issue order over a run of successful reads: each issues exactly one
      write of the bytes it read, before the next read. With write
      completions interleaved the same holds read by read, as `OnEvent`
      states for every read. */
  lemma {:induction false} WriteBeforeNextRead(s: Session, evs: seq<Event>)
    requires Valid(s) && s.reading && s.status.Live? && FitsBuffer(evs)
    requires forall k :: 0 <= k < |evs| ==> evs[k].ReadDone?
    ensures |Feed(s, evs).1| == 2 * |evs|
    ensures forall k :: 0 <= k < |evs| ==>
              Feed(s, evs).1[2 * k] == IssueWrite(evs[k].data) && Feed(s, evs).1[2 * k + 1] == IssueRead
    decreases |evs|
  {
    if |evs| > 0 {
      var rest := evs[1..];
      var (s1, io1) := OnEvent(s, evs[0]);
      assert FitsBuffer(rest) by {
        forall k | 0 <= k < |rest| ensures rest[k].ReadDone? ==> |rest[k].data| <= BufferSize {
          assert rest[k] == evs[k + 1];
        }
      }
      assert forall k :: 0 <= k < |rest| ==> rest[k] == evs[k + 1];
      WriteBeforeNextRead(s1, rest);
      var log := Feed(s, evs).1;
      var tail := Feed(s1, rest).1;
      assert log == io1 + tail;
      forall k | 0 <= k < |evs|
        ensures log[2 * k] == IssueWrite(evs[k].data) && log[2 * k + 1] == IssueRead
      {
        if k > 0 {
          assert log[2 * k] == tail[2 * (k - 1)];
          assert log[2 * k + 1] == tail[2 * (k - 1) + 1];
        }
      }
    }
  }
}

=== FILE: numbers.dfy ===
/** Natural-number helpers shared by the counting arguments. */
module Numbers {

  /** The smaller of two naturals. */
  function Min(a: nat, b: nat): nat {
    if a <= b then a else b
  }
}

=== FILE: report.dfy ===
/**
 The report computed after every client thread has joined: total bytes,
 the wall-clock span from the earliest client start to the latest client
 end, and minimum, maximum, mean and median of the per-message latencies
 pooled over all clients. Times are integer nanosecond ticks of a monotonic
 clock.
 */
module Report {
  import Sorting

  /** One message's send and receive stamps. */
  datatype Sample = Sample(send: int, recv: int)

  /** What a client leaves behind: its begin and end stamps and one sample
      per message. */
  datatype ClientRun = ClientRun(beg: int, end: int, samples: seq<Sample>)

  datatype Summary = Summary(totalBytes: nat, beg: int, end: int, count: nat,
                             min: int, max: int, avg: int, med: int)

  /** `std::size_t` arithmetic is modulo 2^64. */
  const SizeModulus: nat := 0x1_0000_0000_0000_0000

  /** `connections * messages * bytes` in `std::size_t`: exact unless the
      product does not fit in 64 bits. */
  function TotalBytes(connections: nat, messages: nat, bytes: nat): (r: nat)
    ensures r < SizeModulus
    ensures connections * messages * bytes < SizeModulus ==> r == connections * messages * bytes
  {
    (connections * messages * bytes) % SizeModulus
  }

  /** One message's latency, `recv - send`. */
  function Latency(m: Sample): int {
    m.recv - m.send
  }

  /** The latency of each message of one client, in message order. */
  function Latencies(samples: seq<Sample>): (d: seq<int>)
    ensures |d| == |samples|
    ensures forall j :: 0 <= j < |samples| ==> d[j] == Latency(samples[j])
  {
    if |samples| == 0 then []
    else [Latency(samples[0])] + Latencies(samples[1..])
  }

  /** All latencies, client by client: every pooled value is the latency of
      some message of some client. */
  function Pool(clients: seq<ClientRun>): (d: seq<int>)
    ensures forall x :: x in d ==>
              exists i, j :: 0 <= i < |clients| && 0 <= j < |clients[i].samples| && x == Latency(clients[i].samples[j])
  {
    if |clients| == 0 then []
    else
      var head := Latencies(clients[0].samples);
      var rest := Pool(clients[1..]);
      assert forall i :: 0 <= i < |clients[1..]| ==> clients[1..][i] == clients[i + 1];
      assert forall x :: x in head ==> exists j :: 0 <= j < |head| && x == head[j];
      head + rest
  }

  /** How many samples the clients before `clients[i]` hold, which is where
      the latencies of client `i` start in the pool. */
  function Offset(clients: seq<ClientRun>, i: nat): nat
    requires i <= |clients|
    decreases i
  {
    if i == 0 then 0 else |clients[0].samples| + Offset(clients[1..], i - 1)
  }

  /** Message `j` of client `i` has its latency at its own position in `d`:
      after every sample of the clients before it. */
  predicate PlacedAt(d: seq<int>, clients: seq<ClientRun>, i: nat, j: nat)
    requires i < |clients| && j < |clients[i].samples|
  {
    Offset(clients, i) + j < |d| && d[Offset(clients, i) + j] == Latency(clients[i].samples[j])
  }

  /** The pool's layout: client by client, each in message order, so every
      message of every client contributes its latency exactly once, at its
      own position, and nothing else is pooled. */
  lemma {:induction false} PoolLayout(clients: seq<ClientRun>)
    ensures |Pool(clients)| == Offset(clients, |clients|)
    ensures forall i, j :: 0 <= i < |clients| && 0 <= j < |clients[i].samples| ==> PlacedAt(Pool(clients), clients, i, j)
    decreases |clients|
  {
    if |clients| > 0 {
      var head := Latencies(clients[0].samples);
      var rest := clients[1..];
      PoolLayout(rest);
      assert Pool(clients) == head + Pool(rest);
      forall i, j | 0 <= i < |clients| && 0 <= j < |clients[i].samples|
        ensures PlacedAt(Pool(clients), clients, i, j)
      {
        if i == 0 {
          assert Pool(clients)[j] == head[j];
        } else {
          assert clients[i] == rest[i - 1];
          assert PlacedAt(Pool(rest), rest, i - 1, j);
          var at := Offset(rest, i - 1) + j;
          assert Offset(clients, i) + j == |head| + at;
          assert Pool(clients)[|head| + at] == Pool(rest)[at];
        }
      }
    }
  }

  /** With `m` samples per client the pool holds `|clients| * m` latencies. */
  lemma {:induction false} PoolLength(clients: seq<ClientRun>, m: nat)
    requires forall i :: 0 <= i < |clients| ==> |clients[i].samples| == m
    ensures |Pool(clients)| == |clients| * m
    decreases |clients|
  {
    if |clients| > 0 {
      var rest := clients[1..];
      assert forall i :: 0 <= i < |rest| ==> rest[i] == clients[i + 1];
      PoolLength(rest, m);
      assert |clients| * m == |rest| * m + m;
    }
  }

  /** Every sample of every client contributes its latency to the pool. */
  lemma {:induction false} PoolHasEverySample(clients: seq<ClientRun>, i: nat, j: nat)
    requires i < |clients| && j < |clients[i].samples|
    ensures Latency(clients[i].samples[j]) in Pool(clients)
    decreases i
  {
    var head := Latencies(clients[0].samples);
    assert Pool(clients) == head + Pool(clients[1..]);
    if i == 0 {
      assert head[j] in head;
    } else {
      assert clients[i] == clients[1..][i - 1];
      PoolHasEverySample(clients[1..], i - 1, j);
    }
  }

  function Sum(d: seq<int>): int {
    if |d| == 0 then 0 else d[0] + Sum(d[1..])
  }

  /** The smallest element. */
  function MinOf(d: seq<int>): (r: int)
    requires |d| > 0
    ensures r in d && forall x :: x in d ==> r <= x
  {
    if |d| == 1 then d[0]
    else
      var rest := MinOf(d[1..]);
      assert d == [d[0]] + d[1..];
      if d[0] <= rest then d[0] else rest
  }

  /** The largest element. */
  function MaxOf(d: seq<int>): (r: int)
    requires |d| > 0
    ensures r in d && forall x :: x in d ==> x <= r
  {
    if |d| == 1 then d[0]
    else
      var rest := MaxOf(d[1..]);
      assert d == [d[0]] + d[1..];
      if d[0] >= rest then d[0] else rest
  }

  /** `accumulate(durations, 0ns) / durations.size()` as written: dividing a
      signed nanosecond count by an unsigned size converts the count to
      unsigned first, so a negative sum wraps modulo 2^64. */
  function MeanAsWritten(sum: int, count: nat): (r: nat)
    requires count > 0
    ensures r * count <= sum % SizeModulus < (r + 1) * count
    ensures 0 <= sum < SizeModulus ==> r * count <= sum < (r + 1) * count
  {
    var q := (sum % SizeModulus) / count;
    Quotient(sum % SizeModulus, count);
    assert (q + 1) * count == q * count + count;
    q
  }

  /** Euclidean division of naturals, stated as bounds on the quotient. */
  lemma Quotient(a: nat, b: nat)
    requires b > 0
    ensures 0 <= a / b && (a / b) * b <= a < (a / b) * b + b
  {
    assert a == (a / b) * b + a % b;
  }

  /** The mean as intended: signed division truncating toward zero. */
  function Mean(sum: int, count: nat): (r: int)
    requires count > 0
    ensures sum >= 0 ==> 0 <= r && r * count <= sum < (r + 1) * count
    ensures sum < 0 ==> r <= 0 && (r - 1) * count < sum <= r * count
  {
    if sum >= 0 then
      var q := sum / count;
      Quotient(sum, count);
      assert (q + 1) * count == q * count + count;
      q
    else
      var q := (-sum) / count;
      Quotient(-sum, count);
      assert (-q) * count == -(q * count);
      assert (-q - 1) * count == -(q * count) - count;
      -q
  }

  /** The two agree whenever the sum is a non-negative 64-bit value, which
      is every run in which each reply arrived after its request was sent. */
  lemma MeanAgrees(sum: int, count: nat)
    requires count > 0
    ensures 0 <= sum < SizeModulus ==> MeanAsWritten(sum, count) == Mean(sum, count)
  {
  }

  /** A negative latency arises, for example, from a message whose reply
      never came: its receive stamp stays at the clock's epoch, so its
      latency is minus its send stamp. A single latency of -1 ns averages to
      2^64 - 1 ns as written instead of -1 ns. */
  lemma MeanWrapsOnNegativeSum()
    ensures MeanAsWritten(-1, 1) == SizeModulus - 1
    ensures Mean(-1, 1) == -1
  {
  }

  /** The report. The code divides by the number of latencies and reads the
      one at half that count without checking, so at least one latency is
      needed. */
  function Aggregate(connections: nat, messages: nat, bytes: nat, clients: seq<ClientRun>): (r: Summary)
    requires |Pool(clients)| > 0
    ensures r.totalBytes == TotalBytes(connections, messages, bytes)
    ensures r.count == |Pool(clients)|
    ensures r.min in Pool(clients) && r.max in Pool(clients)
    ensures forall d :: d in Pool(clients) ==> r.min <= d <= r.max
    ensures r.avg == Mean(Sum(Pool(clients)), r.count)
    ensures 0 <= Sum(Pool(clients)) < SizeModulus ==> r.avg == MeanAsWritten(Sum(Pool(clients)), r.count)
    ensures Sorting.Below(Pool(clients), r.med) <= r.count / 2 < Sorting.AtMost(Pool(clients), r.med)
    ensures r.beg in Begins(clients) && r.end in Ends(clients)
    ensures forall i :: 0 <= i < |clients| ==> r.beg <= clients[i].beg && clients[i].end <= r.end
  {
    var d := Pool(clients);
    var begs := Begins(clients);
    var ends := Ends(clients);
    assert |clients| > 0;
    assert forall i :: 0 <= i < |clients| ==> begs[i] in begs && ends[i] in ends;
    MeanAgrees(Sum(d), |d|);
    Summary(TotalBytes(connections, messages, bytes), MinOf(begs), MaxOf(ends), |d|,
            MinOf(d), MaxOf(d), Mean(Sum(d), |d|), Sorting.Select(d, |d| / 2))
  }

  /** The clients' begin stamps, in client order. */
  function Begins(clients: seq<ClientRun>): (b: seq<int>)
    ensures |b| == |clients| && forall i :: 0 <= i < |clients| ==> b[i] == clients[i].beg
  {
    seq(|clients|, i requires 0 <= i < |clients| => clients[i].beg)
  }

  /** The clients' end stamps, in client order. */
  function Ends(clients: seq<ClientRun>): (e: seq<int>)
    ensures |e| == |clients| && forall i :: 0 <= i < |clients| ==> e[i] == clients[i].end
  {
    seq(|clients|, i requires 0 <= i < |clients| => clients[i].end)
  }

  /** The single client of the five-sample example. */
  function FiveClients(): seq<ClientRun> {
    [ClientRun(0, 10, [Sample(0, 1), Sample(0, 2), Sample(0, 3), Sample(0, 4), Sample(0, 5)])]
  }

  lemma FivePool()
    ensures Pool(FiveClients()) == [1, 2, 3, 4, 5]
  {
    var clients := FiveClients();
    assert Pool(clients[1..]) == [];
    assert Latencies(clients[0].samples) == [1, 2, 3, 4, 5];
  }

  lemma FiveSum()
    ensures Sum([1, 2, 3, 4, 5]) == 15
  {
    assert Sum([5]) == 5;
    assert Sum([4, 5]) == 9 by { assert [4, 5][1..] == [5]; }
    assert Sum([3, 4, 5]) == 12 by { assert [3, 4, 5][1..] == [4, 5]; }
    assert Sum([2, 3, 4, 5]) == 14 by { assert [2, 3, 4, 5][1..] == [3, 4, 5]; }
    assert [1, 2, 3, 4, 5][1..] == [2, 3, 4, 5];
  }

  lemma FiveRank()
    ensures Sorting.Below([1, 2, 3, 4, 5], 3) == 2 && Sorting.AtMost([1, 2, 3, 4, 5], 3) == 3
  {
    assert Sorting.Below([5], 3) == 0 && Sorting.AtMost([5], 3) == 0;
    assert [4, 5][1..] == [5];
    assert Sorting.Below([4, 5], 3) == 0 && Sorting.AtMost([4, 5], 3) == 0;
    assert [3, 4, 5][1..] == [4, 5];
    assert Sorting.Below([3, 4, 5], 3) == 0 && Sorting.AtMost([3, 4, 5], 3) == 1;
    assert [2, 3, 4, 5][1..] == [3, 4, 5];
    assert Sorting.Below([2, 3, 4, 5], 3) == 1 && Sorting.AtMost([2, 3, 4, 5], 3) == 2;
    assert [1, 2, 3, 4, 5][1..] == [2, 3, 4, 5];
  }

  /** A minimum and maximum of the five latencies 1 to 5 are 1 and 5. */
  lemma FiveExtremes(d: seq<int>, lo: int, hi: int)
    requires d == [1, 2, 3, 4, 5]
    requires forall x :: x in d ==> lo <= x <= hi
    requires lo in d && hi in d
    ensures lo == 1 && hi == 5
  {
    assert d[0] in d && d[4] in d;
  }

  lemma FiveMinMax(clients: seq<ClientRun>)
    requires Pool(clients) == [1, 2, 3, 4, 5]
    ensures var r := Aggregate(1, 5, 10, clients); r.min == 1 && r.max == 5
  {
    var r := Aggregate(1, 5, 10, clients);
    FiveExtremes([1, 2, 3, 4, 5], r.min, r.max);
  }

  lemma FiveMean(clients: seq<ClientRun>)
    requires Pool(clients) == [1, 2, 3, 4, 5]
    ensures Aggregate(1, 5, 10, clients).avg == 3
  {
    FiveSum();
  }

  /** The only value of rank 2 among the latencies 1 to 5 is 3. */
  lemma FiveRankTwo(d: seq<int>, v: int)
    requires d == [1, 2, 3, 4, 5]
    requires Sorting.Below(d, v) <= 2 < Sorting.AtMost(d, v)
    ensures v == 3
  {
    FiveRank();
    if v < 3 {
      Sorting.AtMostBelow(d, v, 3);
    } else if v > 3 {
      Sorting.AtMostBelow(d, 3, v);
    }
  }

  lemma FiveMedian(clients: seq<ClientRun>)
    requires Pool(clients) == [1, 2, 3, 4, 5]
    ensures Aggregate(1, 5, 10, clients).med == 3
  {
    FiveRankTwo(Pool(clients), Aggregate(1, 5, 10, clients).med);
  }

  /** Clients whose latencies are 1 to 5 ticks (such as `FiveClients()`)
      give minimum 1, maximum 5, mean 3 and median 3. */
  lemma FiveSamples(clients: seq<ClientRun>)
    requires Pool(clients) == [1, 2, 3, 4, 5]
    ensures var r := Aggregate(1, 5, 10, clients);
            r.min == 1 && r.max == 5 && r.avg == 3 && r.med == 3 && r.count == 5 && r.totalBytes == 50
  {
    FiveMinMax(clients);
    FiveMean(clients);
    FiveMedian(clients);
  }

  /** Two connections of five 100-byte messages move 1000 bytes. */
  lemma TwoByFive()
    ensures TotalBytes(2, 5, 100) == 1000
  {
  }
}

=== FILE: sorting.dfy ===
/**
 Order statistics over integer samples: a reference sort, rank counts, and
 selection of the element of a given rank (what `std::nth_element` leaves at
 the chosen position).
 */
module Sorting {

  predicate Sorted(s: seq<int>) {
    forall i, j :: 0 <= i < j < |s| ==> s[i] <= s[j]
  }

  function Insert(x: int, s: seq<int>): (r: seq<int>)
    requires Sorted(s)
    ensures Sorted(r) && multiset(r) == multiset(s) + multiset{x} && |r| == |s| + 1
    ensures r[0] == x || (|s| > 0 && r[0] == s[0])
  {
    if |s| == 0 || x <= s[0] then [x] + s
    else
      assert s == [s[0]] + s[1..];
      [s[0]] + Insert(x, s[1..])
  }

  /** The reference sort: a sorted permutation of `s`. */
  function Sort(s: seq<int>): (r: seq<int>)
    ensures Sorted(r) && multiset(r) == multiset(s) && |r| == |s|
  {
    if |s| == 0 then []
    else
      assert s == [s[0]] + s[1..];
      Insert(s[0], Sort(s[1..]))
  }

  /** How many elements of `s` are smaller than `v`. */
  function Below(s: seq<int>, v: int): nat {
    if |s| == 0 then 0 else (if s[0] < v then 1 else 0) + Below(s[1..], v)
  }

  /** How many elements of `s` are at most `v`. */
  function AtMost(s: seq<int>, v: int): nat {
    if |s| == 0 then 0 else (if s[0] <= v then 1 else 0) + AtMost(s[1..], v)
  }

  lemma {:induction false} InsertCounts(x: int, s: seq<int>, v: int)
    requires Sorted(s)
    ensures Below(Insert(x, s), v) == Below(s, v) + (if x < v then 1 else 0)
    ensures AtMost(Insert(x, s), v) == AtMost(s, v) + (if x <= v then 1 else 0)
    decreases |s|
  {
    var r := Insert(x, s);
    if |s| == 0 || x <= s[0] {
      assert r[1..] == s;
    } else {
      InsertCounts(x, s[1..], v);
      assert r[0] == s[0] && r[1..] == Insert(x, s[1..]);
    }
  }

  /** Sorting changes no rank count. */
  lemma {:induction false} SortCounts(s: seq<int>, v: int)
    ensures Below(Sort(s), v) == Below(s, v) && AtMost(Sort(s), v) == AtMost(s, v)
    decreases |s|
  {
    if |s| > 0 {
      SortCounts(s[1..], v);
      InsertCounts(s[0], Sort(s[1..]), v);
    }
  }

  /** When everything from index `k` on is at least `v`, fewer than `k + 1`
      elements are below `v`. */
  lemma {:induction false} BelowBound(t: seq<int>, v: int, k: nat)
    requires k <= |t| && forall j :: k <= j < |t| ==> t[j] >= v
    ensures Below(t, v) <= k
    decreases |t|
  {
    if |t| > 0 {
      if k == 0 {
        BelowBound(t[1..], v, 0);
      } else {
        BelowBound(t[1..], v, k - 1);
      }
    }
  }

  /** When everything up to index `k` is at most `v`, more than `k`
      elements are at most `v`. */
  lemma {:induction false} AtMostBound(t: seq<int>, v: int, k: nat)
    requires k < |t| && forall j :: 0 <= j <= k ==> t[j] <= v
    ensures AtMost(t, v) > k
    decreases |t|
  {
    if k > 0 {
      AtMostBound(t[1..], v, k - 1);
    } else {
      assert t[0] <= v;
    }
  }

  /** The element at index `k` of a sorted sequence has rank `k`: at most
      `k` elements lie below it and more than `k` are at most it. */
  lemma SortedRank(t: seq<int>, k: nat)
    requires Sorted(t) && k < |t|
    ensures Below(t, t[k]) <= k < AtMost(t, t[k])
  {
    BelowBound(t, t[k], k);
    AtMostBound(t, t[k], k);
  }

  /** The element of rank `k` in `s`, as `std::nth_element` places it at
      position `k`: the `k`-th element of the sorted permutation. */
  function Select(s: seq<int>, k: nat): (v: int)
    requires k < |s|
    ensures v in s
    ensures Below(s, v) <= k < AtMost(s, v)
  {
    var t := Sort(s);
    SortedRank(t, k);
    SortCounts(s, t[k]);
    assert t[k] in multiset(t);
    t[k]
  }

  /** Everything at most `v` is below a larger `w`. */
  lemma {:induction false} AtMostBelow(s: seq<int>, v: int, w: int)
    requires v < w
    ensures AtMost(s, v) <= Below(s, w)
    decreases |s|
  {
    if |s| > 0 {
      AtMostBelow(s[1..], v, w);
    }
  }

  /** The rank condition pins the element down: any `v` with at most `k`
      elements below it and more than `k` at most it is `Select(s, k)`. */
  lemma RankDeterminesSelect(s: seq<int>, k: nat, v: int)
    requires k < |s| && Below(s, v) <= k < AtMost(s, v)
    ensures v == Select(s, k)
  {
    var w := Select(s, k);
    if v < w {
      AtMostBelow(s, v, w);
    } else if w < v {
      AtMostBelow(s, w, v);
    }
  }
}

=== FILE: start_barrier.dfy ===
/**
 The start barrier of the client worker pool, as a sequential trace of what
 the threads do while holding the barrier's mutex. A thread arriving
 increments `thread_cur`; it waits unless `thread_cur` has reached
 `thread_max`. A thread passing the barrier exchanges `started` with `true`
 and starts every client if the old value was `false`. A waiting thread that
 wakes, by notification or spuriously, re-checks the condition.
 */
module StartBarrier {
  import Numbers

  /** The worker pool size for a reported hardware concurrency `hw`:
      `max(hw, 2) - 1`, one core being left to the server thread. `hw` is 0
      when the platform cannot tell. */
  function PoolSize(hw: nat): (n: nat)
    ensures n >= 1
    ensures n + 1 == (if hw < 2 then 2 else hw)
  {
    (if hw < 2 then 2 else hw) - 1
  }

  /** What happens under the mutex: a new thread arrives, or a waiting
      thread wakes and re-checks the condition. */
  datatype Event = Arrive | Wake

  /** `cur` is `thread_cur`, `max` is `thread_max`; `waiting` threads are
      blocked on the condition variable and `passed` threads are past it;
      `launched` lists the clients whose `start()` has been called, in order. */
  datatype Barrier = Barrier(max: nat, cur: nat, started: bool, waiting: nat, passed: nat, launched: seq<nat>)

  /** `clients` started in order, each once. */
  function AllClients(clients: nat): (r: seq<nat>)
    ensures |r| == clients
    ensures forall k :: 0 <= k < clients ==> r[k] == k
  {
    if clients == 0 then [] else AllClients(clients - 1) + [clients - 1]
  }

  function Init(max: nat): (b: Barrier)
  {
    Barrier(max, 0, false, 0, 0, [])
  }

  /** A thread gets past the wait: `std::exchange(started, true)`, and the
      client start loop runs only when the old value was `false`. */
  function Pass(b: Barrier, clients: nat): (r: Barrier)
    ensures r.started && r.passed == b.passed + 1
    ensures r.max == b.max && r.cur == b.cur && r.waiting == b.waiting
    ensures !b.started ==> r.launched == b.launched + AllClients(clients)
    ensures b.started ==> r.launched == b.launched
  {
    var launched := if !b.started then b.launched + AllClients(clients) else b.launched;
    b.(started := true, passed := b.passed + 1, launched := launched)
  }

  /** One step under the mutex. An arrival beyond the pool size cannot
      happen (there are `max` threads) and is skipped, as is a wake with no
      thread waiting. */
  function Step(b: Barrier, clients: nat, ev: Event): (r: Barrier)
    ensures r.max == b.max
    ensures r.cur == (if ev.Arrive? && b.cur < b.max then b.cur + 1 else b.cur)
    ensures r.passed > b.passed ==> r.passed == b.passed + 1 && r.cur >= r.max
    ensures r.launched == b.launched || (!b.started && r.started && r.launched == b.launched + AllClients(clients))
  {
    match ev
    case Arrive =>
      if b.cur >= b.max then b
      else
        var b1 := b.(cur := b.cur + 1);
        if b1.cur < b1.max then b1.(waiting := b1.waiting + 1) else Pass(b1, clients)
    case Wake =>
      if b.waiting == 0 || b.cur < b.max then b
      else Pass(b.(waiting := b.waiting - 1), clients)
  }

  function Run(b: Barrier, clients: nat, evs: seq<Event>): (r: Barrier)
    decreases |evs|
  {
    if |evs| == 0 then b else Run(Step(b, clients, evs[0]), clients, evs[1..])
  }

  /** What holds under the mutex at every point of any trace: every arrived
      thread is either waiting or past; nobody is past before all `max`
      threads arrived; and the clients were started, all of them exactly
      once, precisely when some thread got past. */
  predicate Inv(b: Barrier, clients: nat) {
    && b.cur <= b.max
    && b.waiting + b.passed == b.cur
    && (b.passed > 0 ==> b.cur >= b.max)
    && (b.cur == b.max > 0 ==> b.passed > 0)
    && (b.started <==> b.passed > 0)
    && b.launched == (if b.started then AllClients(clients) else [])
  }

  /** Arrivals seen in a trace. */
  function Arrivals(evs: seq<Event>): nat {
    if |evs| == 0 then 0 else (if evs[0].Arrive? then 1 else 0) + Arrivals(evs[1..])
  }

  lemma StepKeepsInv(b: Barrier, clients: nat, ev: Event)
    requires Inv(b, clients)
    ensures Inv(Step(b, clients, ev), clients)
    ensures Step(b, clients, ev).cur == (if ev.Arrive? && b.cur < b.max then b.cur + 1 else b.cur)
  {
  }

  lemma {:induction false} RunInv(b: Barrier, clients: nat, evs: seq<Event>)
    requires Inv(b, clients)
    ensures Inv(Run(b, clients, evs), clients)
    decreases |evs|
  {
    if |evs| > 0 {
      StepKeepsInv(b, clients, evs[0]);
      RunInv(Step(b, clients, evs[0]), clients, evs[1..]);
    }
  }

  lemma {:induction false} RunCount(b: Barrier, clients: nat, evs: seq<Event>)
    requires b.cur <= b.max
    ensures Run(b, clients, evs).cur == Numbers.Min(b.max, b.cur + Arrivals(evs))
    decreases |evs|
  {
    if |evs| > 0 {
      var b1 := Step(b, clients, evs[0]);
      RunCount(b1, clients, evs[1..]);
      assert Run(b, clients, evs) == Run(b1, clients, evs[1..]);
    }
  }

  /** Whatever the interleaving of arrivals and wake-ups, the invariant holds
      throughout; the barrier has counted `min(max, arrivals)` threads; and
      once all `max` threads have arrived the clients have been started,
      each exactly once. */
  lemma RunKeepsInv(b: Barrier, clients: nat, evs: seq<Event>)
    requires Inv(b, clients)
    ensures Inv(Run(b, clients, evs), clients)
    ensures Run(b, clients, evs).cur == Numbers.Min(b.max, b.cur + Arrivals(evs))
  {
    RunInv(b, clients, evs);
    RunCount(b, clients, evs);
  }

  /** The thread whose arrival completes the count is the one that starts
      the clients; every earlier arrival waits. */
  lemma LastArrivalStarts(b: Barrier, clients: nat)
    requires Inv(b, clients) && b.cur + 1 == b.max
    ensures var r := Step(b, clients, Arrive);
            && r.started && !b.started && r.passed == 1 && r.launched == AllClients(clients)
  {
  }

  /** The pool of `max` threads, when all arrive first and then the
      `max - 1` waiters wake in turn, is entirely past the barrier and the
      client start loop ran exactly once. Other interleavings are covered by
      the invariant `RunKeepsInv` maintains. */
  lemma {:induction false} AllThreadsPass(max: nat, clients: nat)
    requires max >= 1
    ensures var r := Run(Init(max), clients, seq(max, _ => Arrive) + seq(max - 1, _ => Wake));
            r.passed == max && r.waiting == 0 && r.launched == AllClients(clients)
  {
    var arrivals := seq(max, _ => Arrive);
    var wakes := seq(max - 1, _ => Wake);
    RunAppend(Init(max), clients, arrivals, wakes);
    ArrivalsOnly(Init(max), clients, max);
    var b := Run(Init(max), clients, arrivals);
    WakesRelease(b, clients, max - 1);
  }

  lemma {:induction false} RunAppend(b: Barrier, clients: nat, a: seq<Event>, c: seq<Event>)
    ensures Run(b, clients, a + c) == Run(Run(b, clients, a), clients, c)
    decreases |a|
  {
    if |a| == 0 {
      assert a + c == c;
    } else {
      assert (a + c)[0] == a[0];
      assert (a + c)[1..] == a[1..] + c;
      RunAppend(Step(b, clients, a[0]), clients, a[1..], c);
      assert Run(b, clients, a) == Run(Step(b, clients, a[0]), clients, a[1..]);
      assert Run(b, clients, a + c) == Run(Step(b, clients, a[0]), clients, a[1..] + c);
    }
  }

  /** `n` arrivals from the initial state: the first `n - 1` wait. */
  lemma {:induction false} ArrivalsOnly(b: Barrier, clients: nat, n: nat)
    requires b == Init(b.max) && n == b.max && n >= 1
    ensures Run(b, clients, seq(n, _ => Arrive)) == Barrier(n, n, true, n - 1, 1, AllClients(clients))
  {
    WaitingArrivals(b, clients, n - 1);
    var w := Run(b, clients, seq(n - 1, _ => Arrive));
    assert seq(n, _ => Arrive) == seq(n - 1, _ => Arrive) + [Arrive];
    RunAppend(b, clients, seq(n - 1, _ => Arrive), [Arrive]);
    assert Run(w, clients, [Arrive]) == Step(w, clients, Arrive);
  }

  /** Arrivals that do not complete the count all wait. */
  lemma {:induction false} WaitingArrivals(b: Barrier, clients: nat, n: nat)
    requires b == Init(b.max) && n < b.max
    ensures Run(b, clients, seq(n, _ => Arrive)) == b.(cur := n, waiting := n)
    decreases n
  {
    if n > 0 {
      WaitingArrivals(b, clients, n - 1);
      assert seq(n, _ => Arrive) == seq(n - 1, _ => Arrive) + [Arrive];
      RunAppend(b, clients, seq(n - 1, _ => Arrive), [Arrive]);
      var w := Run(b, clients, seq(n - 1, _ => Arrive));
      assert Run(w, clients, [Arrive]) == Step(w, clients, Arrive);
    }
  }

  /** Once the count is complete each wake-up releases one waiting thread
      without starting the clients again. */
  lemma {:induction false} WakesRelease(b: Barrier, clients: nat, n: nat)
    requires Inv(b, clients) && b.cur == b.max && n <= b.waiting
    ensures var r := Run(b, clients, seq(n, _ => Wake));
            r.waiting == b.waiting - n && r.passed == b.passed + n && r.launched == b.launched
    decreases n
  {
    if n > 0 {
      var evs := seq(n, _ => Wake);
      assert evs[0] == Wake && evs[1..] == seq(n - 1, _ => Wake);
      StepKeepsInv(b, clients, Wake);
      WakesRelease(Step(b, clients, Wake), clients, n - 1);
    }
  }
}

=== FILE: transport.dfy ===
/**
 The part of the asynchronous transport the benchmark engine looks at: the
 error codes a completion can carry, how each backend classifies them, and
 the shape of a read or write completion. Sockets, resolvers and the event
 loop themselves are not modelled.
 */
module Transport {

  /** An octet on the wire or in a buffer. */
  newtype byte = b: int | 0 <= b < 256

  /** Transport error codes. The three named ones are the codes the backends
      single out; every other `std::error_code` is `Other`. */
  datatype Error = OperationAborted | ConnectionReset | Eof | Other(code: int)

  /** `is_shutdown` of a session (identical in both backends): the error ends
      a session quietly when the operation was aborted, the peer reset the
      connection or the stream reached end of file. */
  predicate IsSessionShutdown(e: Error) {
    e.OperationAborted? || e.ConnectionReset? || e.Eof?
  }

  /** `is_shutdown` of a listening server (identical in both backends): only
      an aborted accept ends the accept loop quietly. */
  predicate IsAcceptorShutdown(e: Error) {
    e.OperationAborted?
  }

  /** The completion of a read or write on a client connection: either the
      byte count it transferred or the error it failed with. */
  datatype Completion = Done(size: nat) | Failed(err: Error)

  /** Whether an error escaped a completion handler. An escaping error ends
      the event loop that ran the handler. */
  datatype Status = Live | Fatal(err: Error)

  /** Every completion in `evs` succeeded. */
  predicate AllDone(evs: seq<Completion>) {
    forall k :: 0 <= k < |evs| ==> evs[k].Done?
  }

  lemma AllDoneTail(evs: seq<Completion>)
    requires |evs| > 0 && AllDone(evs)
    ensures AllDone(evs[1..])
  {
    assert forall k :: 0 <= k < |evs[1..]| ==> evs[1..][k] == evs[k + 1];
  }
}
